=== FILE: README.md ===
# Random theme generator: a Dafny model

This project models the random palette generator of the theme editor.
`createThemeConfig` takes an optional primary colour. From it, it builds a light and a dark palette of 34 colour roles each:
- background, foreground, card, popover, primary, secondary, accent, destructive, muted, border, input and ring;
- the feature roles `unlocked`, `long*`, `short*`, `tp*`, `sl*` and `chartBg`.

The generator works as follows:
- colours come from fixed random ranges;
- a harmony mode picks secondary and accent;
- a bounded greedy search (`createContrast`, at most 12 steps) looks for a foreground with contrast at least 6 for the primary, secondary, accent and destructive colours, and keeps the last colour tried if none reaches it;
- a handful of coin flips and deviations are drawn once and shared by both schemes.

`createRandomTheme` then flattens each scheme into `{title, variable, color}` entries. The variable is `--` plus the kebab-cased key. The title is looked up in the static `themeColors` table.

What is injected rather than computed:
- **Randomness.** `Math.random()` is an injected stream `Faker.Source` (the n-th call returns `src(n)`). Every helper threads the cursor of the next unread draw, so the order of draws is explicit. Range facts are proved under `Faker.Valid(src)`, which says every draw lies in [0, 1).
- **The colour library.** colord is a record of function values, `Colord.ColorLib`. It covers the constructor, `toHsl`, `hue`, `isLight`, `darken`, `lighten`, `saturate`, `contrast` and `harmonies`. Every property holds for every choice of these functions.
- **Exceptions.** Thrown errors are a `Result` carrying `HarmonyFailed` ("Failed to create harmony") or `InvalidMode` ("Invalid mode").

Modules, one per file:

| file | module | models |
|---|---|---|
| wrappers.dfy | `Wrappers` | `Option` and `Result` |
| colord.dfy | `Colord` | HSL records, colord instances, the injected colour library |
| faker.dfy | `Faker` | the `faker` helpers over the injected stream |
| contrast.dfy | `Contrast` | `createContrast` |
| palette.dfy | `Palette` | the 34 role keys, their order, the palette record |
| theme_config.dfy | `ThemeConfig` | the colour builders, `createColorHarmony`, `createThemeConfig` |
| theme.dfy | `Theme` | `themeColors`, `getColorTitle`, `SystemThemes` |
| kebab_case.dfy | `KebabCase` | `toKebabCase` and its inverse on camelCase keys |
| random_theme.dfy | `RandomTheme` | `createRandomTheme`, as written and corrected |

## Model

| member | source | states |
|---|---|---|
| Faker.Int | src/lib/create-theme-config.ts:24-29 | consumes one draw; with a draw in [0, 1) and min <= max the result is an integer in [min, max] |
| Faker.Float | src/lib/create-theme-config.ts:30-32 | consumes one draw; with a draw in [0, 1) and min < max the result lies in [min, max) |
| Faker.Boolean | src/lib/create-theme-config.ts:35-37 | consumes exactly one draw |
| Faker.ArrayElement | src/lib/create-theme-config.ts:40-44 | with a draw in [0, 1) a non-empty array yields one of its own elements; an empty array yields undefined (None) |
| ThemeConfig.CreatePrimaryColor | src/lib/create-theme-config.ts:48-54 | three draws; hue is a whole number in [0, 360] (360 included), saturation in [0, 100], lightness in [10, 90] |
| Contrast.Seek | src/lib/create-theme-config.ts:56-66 | the loop takes at most 12 steps, each a step in the fixed direction; stopping before the cap means the contrast against the base is at least 6; no earlier step reached 6 |
| Contrast.CreateContrast | src/lib/create-theme-config.ts:56-66 | the direction is chosen once by isLight of the input (darken if light, else lighten); the result is the first iterate with contrast >= 6 or the 12th iterate |
| Contrast.CapReached | src/lib/create-theme-config.ts:56-66 | when no iterate before the 12th reaches the target (a near-grey base), exactly 12 steps are taken |
| ThemeConfig.CreateBackgroundLight | src/lib/create-theme-config.ts:78-84 | keeps the given hue; saturation in [30, 70], lightness in [98, 100]; two draws |
| ThemeConfig.CreateBackgroundDark | src/lib/create-theme-config.ts:86-92 | keeps the given hue; saturation in [30, 60], lightness in [0, 4]; two draws |
| ThemeConfig.CreateForegroundLight | src/lib/create-theme-config.ts:94-106 | keeps the given hue; saturation in [50, 80], lightness in [0, 5]; two draws |
| ThemeConfig.CreateForegroundDark | src/lib/create-theme-config.ts:108-120 | keeps the given hue; saturation in [10, 40], lightness in [97, 100]; two draws |
| ThemeConfig.CreateDestructive | src/lib/create-theme-config.ts:122-137 | the instance is built from a red with hue in [0, 22], saturation in [80, 100], lightness in [20, 45]; three draws |
| ThemeConfig.CreateColorHarmony | src/lib/create-theme-config.ts:141-214 | complementary gives accent = secondary = harmonies[1]; triadic gives harmonies[1] and [2]; analogous gives [0] and [2]; each fails exactly when its element is missing; slick builds the secondary at the primary's hue with s in [0, 20] and l in [8, 20] (dark) or [80, 92] (light), sets accent = secondary under shouldMatch, and otherwise nudges it by two amounts in [0.05, 0.1] (saturate then lighten in dark, darken then saturate in light); an undefined mode is "Invalid mode" |
| ThemeConfig.CreateHarmonies | src/lib/create-theme-config.ts:268-305 | one mode and one shouldMatch serve both schemes; complementary, triadic and analogous return the primary's harmony members [1] and [1], [1] and [2], [0] and [2], the same pair in both schemes; with valid draws only "Failed to create harmony" is possible, and when colord's complementary harmony has 2 members and its triadic and analogous ones 3, nothing fails |
| ThemeConfig.CreateSurfaces | src/lib/create-theme-config.ts:232-266 | background and foreground take the primary's hue in both schemes and stay in their ranges; one card flip and one popover flip decide both schemes |
| ThemeConfig.CreateDestructives | src/lib/create-theme-config.ts:307-314 | the dark destructive keeps the light hue and saturation, with lightness in [45, 60] |
| ThemeConfig.CreateShades | src/lib/create-theme-config.ts:324-373 | the deviations are shared: muted l = 85 + d in [85, 95] and 15 - d in [5, 15]; muted-foreground l = 25 + d in [25, 40] and 75 - d in [60, 75]; the light border is 5 to 10 below the light background, so in [88, 95]; the dark border l is in [10, 15]; each border takes its scheme's background hue |
| ThemeConfig.Scheme | src/lib/create-theme-config.ts:375-447 | input = border, ring = tp = primary, unlocked = chartBg = background, long = accent, short = destructive, sl = secondary with matching foregrounds; the Inside roles are their base darkened by 0.4, tpLight the primary lightened by 0.1 |
| ThemeConfig.CreateThemeConfig | src/lib/create-theme-config.ts:216-448 | a given primary is used as the seed, otherwise the drawn seed is in range; with valid draws the only failure is "Failed to create harmony"; with valid draws it always succeeds when colord's complementary harmony has at least 2 members and its triadic and analogous harmonies at least 3, as colord's do |
| ThemeConfig.PrimaryRoles | src/lib/create-theme-config.ts:220-230 | primary and primaryForeground come from the seed and its contrast colour; they, tpInside and tpLight are the same in light and dark |
| ThemeConfig.AliasedRoles | src/lib/create-theme-config.ts:375-447 | the aliases and the Inside/Light shades hold in both generated schemes |
| ThemeConfig.SurfaceRoles | src/lib/create-theme-config.ts:232-266 | in a generated theme, background and foreground inherit the primary's hue and stay in range; card and popover follow the shared flips |
| ThemeConfig.HarmonyRoles | src/lib/create-theme-config.ts:268-305 | in a generated theme, outside slick mode secondary and accent (and their foregrounds) agree across schemes; secondary and accent are the harmony members the mode picks (complementary [1] and [1], triadic [1] and [2], analogous [0] and [2]); complementary, and slick with shouldMatch, make accent equal secondary |
| ThemeConfig.DestructiveRoles | src/lib/create-theme-config.ts:307-322 | in a generated theme, the light destructive is the drawn red; the dark one keeps its h and s with l in [45, 60]; each foreground is the contrast colour of its own destructive |
| ThemeConfig.ShadeRoles | src/lib/create-theme-config.ts:324-373 | in a generated theme, muted, muted-foreground and border share deviations across schemes and stay in range |
| Palette.RoleOrderDistinct | src/lib/create-theme-config.ts:376-410 | the 34 keys of a scheme occur once each in key order |
| Palette.RoleOrderComplete | src/lib/create-theme-config.ts:376-410 | every role is at its own index of the key order |
| Theme.FindTitle | src/lib/theme.ts:145-148 | the lookup is undefined exactly when no row has the variable; otherwise it gives the title of the first matching row |
| Theme.GetColorTitle | src/lib/theme.ts:145-148 | the same over `themeColors`; there is no fallback title |
| Theme.FindTitleAt | src/lib/theme.ts:145-148 | over a table with distinct variables, looking up a row's variable gives that row's title |
| Theme.TableShape | src/lib/theme.ts:6-143 | the table has 34 rows |
| Theme.TablePrefixed | src/lib/theme.ts:6-143 | every variable of the table starts with `--` |
| Theme.TableDistinct | src/lib/theme.ts:6-143 | no variable appears twice, so the lookup is unambiguous |
| Theme.PrimaryForegroundTitle | src/lib/theme.ts:11-14 | `--primary-foreground` has the title "Primary Foreground" |
| KebabCase.LowerCase | src/lib/create-theme-config.ts:500 | every position becomes its ASCII-lowered character, so the length is kept and no ASCII upper-case letter remains |
| KebabCase.LowerCaseAppend | src/lib/create-theme-config.ts:500 | lowering distributes over concatenation |
| KebabCase.ToKebabCase | src/lib/create-theme-config.ts:497-501 | the result has no ASCII upper-case letter |
| KebabCase.HyphenateAppend | src/lib/create-theme-config.ts:499 | the hyphen insertion splits at a seam: hyphenating a + b is hyphenating a, a hyphen exactly where a lower-case letter meets an upper-case one, and hyphenating b |
| KebabCase.KebabAppend | src/lib/create-theme-config.ts:497-501 | the kebab form of a + b is the kebab forms of a and b, joined by a hyphen exactly where a lower-case letter meets an upper-case one |
| KebabCase.KebabOfKey | src/lib/create-theme-config.ts:497-501 | a lower-case word followed by an optional capitalised word is camelCase, and its kebab form is the first word, a hyphen, and the second word lowered |
| KebabCase.KebabRoundTrip | src/lib/create-theme-config.ts:497-501 | on camelCase input, turning hyphen-letter pairs back into capitals recovers the input |
| KebabCase.KebabInjective | src/lib/create-theme-config.ts:497-501 | two camelCase identifiers never share a kebab form |
| RandomTheme.Variable | src/lib/create-theme-config.ts:509 | `pro`: the variable starts with `--` and holds no ASCII upper-case letter |
| RandomTheme.Entry | src/lib/create-theme-config.ts:510-514 | the pushed `{title, variable, color}`: the variable is the role's `--` kebab name, the colour is the palette's colour for the role, and the title looked up for that variable is the role's row title, missing exactly for chartBg |
| RandomTheme.VariableSpelled | src/lib/create-theme-config.ts:509 | every key is camelCase, and its variable is `--`, the first word, then a hyphen and the lowered second word if there is one |
| RandomTheme.VariableRoundTrip | src/lib/create-theme-config.ts:509 | every variable starts with `--`, and undoing the kebab case gives the key back |
| RandomTheme.RowVariable | src/lib/theme.ts:6-138 | every role except chartBg finds its own variable in the row of the table written for it |
| RandomTheme.ChartBgUnlisted | src/lib/theme.ts:139-142 | no row of the table holds `--chart-bg` |
| RandomTheme.RowOfInjective | src/lib/theme.ts:6-143 | different roles have different rows |
| RandomTheme.TitleOfRole | src/lib/create-theme-config.ts:509-511 | the title lookup is undefined exactly for chartBg; every other role gets its own row's title |
| RandomTheme.VariableInjective | src/lib/create-theme-config.ts:508-509 | distinct roles are published under distinct variables |
| RandomTheme.NameInjective | src/lib/create-theme-config.ts:376-410 | distinct roles have distinct keys |
| RandomTheme.SerializeScheme | src/lib/create-theme-config.ts:507-515 | one entry per key |
| RandomTheme.SchemeEntries | src/lib/create-theme-config.ts:507-515 | each role's entry sits at the role's position in key order and carries the role's colour and variable; every role but chartBg carries its row's title |
| RandomTheme.SchemeTitles | src/lib/create-theme-config.ts:510-511 | in a scheme's list the title is missing for chartBg and for no other key |
| RandomTheme.SchemeVariablesDistinct | src/lib/create-theme-config.ts:507-515 | no variable appears twice in a scheme's list |
| RandomTheme.Publish | src/lib/create-theme-config.ts:505-518 | the result's keys are exactly `SystemThemes`, each with one entry per role |
| RandomTheme.PublishedColors | src/lib/create-theme-config.ts:506-516 | each scheme's list carries that scheme's colour for every role |
| RandomTheme.PublishedTitles | src/lib/create-theme-config.ts:506-516 | in both schemes only chartBg goes untitled |
| RandomTheme.CreateRandomTheme | src/lib/create-theme-config.ts:503-519 | fails exactly when the generation fails, with its error; cannot fail under valid draws when colord's harmonies have the members the generator reads (2 complementary, 3 triadic and analogous); publishes the generated pair |
| RandomTheme.CorrectedRow | src/lib/theme.ts:139-142 | with the last row spelt `--chart-bg`, every role's variable is its row's variable, and the titles are unchanged |
| RandomTheme.CorrectedDistinct | src/lib/theme.ts:6-143 | the corrected table still has no variable twice |
| RandomTheme.CorrectedTitleResolves | src/lib/theme.ts:145-148 | against the corrected table every role's lookup gives its row's title |
| RandomTheme.CorrectedEntry | src/lib/create-theme-config.ts:510-514 | with the corrected table, an entry always has its row's title, the role's variable and the role's colour |
| RandomTheme.CorrectedSchemeEntries | src/lib/create-theme-config.ts:507-515 | with the corrected table every entry is titled, and only chartBg's title differs from the list as written |
| RandomTheme.CreateRandomThemeCorrected | src/lib/create-theme-config.ts:503-519 | succeeds exactly when the version as written does, and then publishes the generated pair with every entry titled |

## Left out

- Uniformity of `Math.random()`: only range and sharing facts are stated, not distributions, because the draws are an injected stream.
- colord's arithmetic is not modelled because it is foreign floating-point code with rounding and gamut clamping. This covers the `Colord` constructor, `toHsl`, `darken`, `lighten`, `saturate`, `isLight`, `hue`, `harmonies` and the WCAG 2.1 contrast ratio. No equality across a `toHsl` round-trip is claimed. Slick-mode facts are stated on the constructor input.
- `colordToHsl` (create-theme-config.ts:68-76) is the injected `toHsl` for the same reason.
- The order of the two modes in the published object is not kept: the result is a Dafny `map`, whose keys are exactly `light` and `dark`.
- The legacy return block commented out at create-theme-config.ts:450-493 is not modelled, because it never runs.
- The step cap of `createContrast` is 12 steps, following the code: the guard `i++ > 10` breaks only after the step taken with `i == 11`.
- Faker.Float: draws and arithmetic are exact reals, so the result stays below `max`; with IEEE doubles the largest draw can round up to exactly `max`. The one use that matters, the slick nudge amount, is therefore stated on the closed range [0.05, 0.1].
- KebabCase.LowerCase: only ASCII letters change case. JavaScript's `toLowerCase` lowers all of Unicode and can change the length, so `KebabInjective` and the length clause hold only for ASCII input. The generator only ever passes its 34 ASCII keys.
- Faker.Int: the range promise assumes `min <= max`, which every call site meets; the source does not check it.
- `Faker.Boolean`: the coin's bias is not stated, because no property of the generator depends on it.
- The side bar component, layout and page chrome are UI and I/O, so they are not part of this model.
- TypeScript types (`ShadCnPropritiesType`, `ThemeWithHSLColor`) carry no runtime behaviour; the `!` after `getColorTitle` is modelled as doing nothing.

## Findings

| source | as written | input that shows it | evidently intended | confidence | as-written member | corrected member |
|---|---|---|---|---|---|---|
| src/lib/theme.ts:141 | the chartBg row registers `--chartBg`, but `createRandomTheme` looks titles up under `"--" + toKebabCase(name)` (create-theme-config.ts:509-511), which is `--chart-bg`, so the lookup returns undefined and the `!` does not stop it | the key `chartBg` of either scheme | the row spelt `--chart-bg`, so that every entry gets a title | high (proved in the model); not executed | RandomTheme.TitleOfRole | RandomTheme.CreateRandomThemeCorrected |

=== FILE: colord.dfy ===
/** The part of the colord library the generator calls. The library's colour
    arithmetic (floating point, gamut clamping, rounding) is foreign code, so
    each operation is an injected function value: every property proved in
    this project holds for every choice of these functions. */
module Colord {

  /** A plain `{h, s, l}` object (hue in degrees, saturation and lightness in percent). */
  datatype Hsl = Hsl(h: real, s: real, l: real)

  /** A colord instance; the library stores a colour as RGBA channels. */
  datatype Rgba = Rgba(r: real, g: real, b: real, a: real)

  /** The colord operations used by the generator, one field per method.
      `harmonies` receives colord's harmony name ("complementary", "triadic",
      "analogous") and may return any number of colours. */
  datatype ColorLib = ColorLib(
    parse: Hsl -> Rgba,              // new Colord({h, s, l})
    toHsl: Rgba -> Hsl,              // colordToHsl: toHsl() without alpha
    hue: Rgba -> real,               // .hue()
    isLight: Rgba -> bool,           // .isLight()
    darken: (Rgba, real) -> Rgba,    // .darken(amount)
    lighten: (Rgba, real) -> Rgba,   // .lighten(amount)
    saturate: (Rgba, real) -> Rgba,  // .saturate(amount)
    contrast: (Rgba, Rgba) -> real,  // a.contrast(b), the WCAG 2.1 contrast ratio
    harmonies: (Rgba, string) -> seq<Rgba>)

  /** `colordToHsl(new Colord(c).darken(amount))`. */
  function Darken(lib: ColorLib, c: Hsl, amount: real): Hsl {
    lib.toHsl(lib.darken(lib.parse(c), amount))
  }

  /** `colordToHsl(new Colord(c).lighten(amount))`. */
  function Lighten(lib: ColorLib, c: Hsl, amount: real): Hsl {
    lib.toHsl(lib.lighten(lib.parse(c), amount))
  }
}

=== FILE: contrast.dfy ===
/** `createContrast`: a bounded greedy search for a colour readable on a base
    colour. The direction is fixed once from the base: a light base is darkened
    step by step, a dark one lightened, until the contrast ratio against the
    base reaches the target or the step cap is hit. */
module Contrast {
  import opened Colord

  /** The amount of each darken/lighten step. */
  const StepAmount: real := 0.2

  /** The contrast ratio the search aims for. */
  const Target: real := 6.0

  /** The most steps the loop can take: its guard `i++ > 10` only breaks after
      the step taken with `i == 11`, which is the twelfth. */
  const MaxSteps: nat := 12

  /** One step of the search in the fixed direction. */
  function Nudge(lib: ColorLib, darkening: bool, c: Rgba): Rgba {
    if darkening then lib.darken(c, StepAmount) else lib.lighten(c, StepAmount)
  }

  /** The colour after `n` steps from `c`. */
  function Iterate(lib: ColorLib, darkening: bool, c: Rgba, n: nat): Rgba
    decreases n
  {
    if n == 0 then c else Iterate(lib, darkening, Nudge(lib, darkening, c), n - 1)
  }

  /** The outcome of a search: the colour returned and the steps taken. */
  datatype Search = Search(color: Rgba, steps: nat)

  /** The loop from the state where `i` steps have been taken and the current
      colour is `opposite`. The result is the first iterate that reaches the
      target, or the twelfth iterate, whichever comes first. */
  function Seek(lib: ColorLib, darkening: bool, base: Rgba, opposite: Rgba, i: nat): (r: Search)
    requires i < MaxSteps
    ensures i <= r.steps <= MaxSteps
    ensures r.color == Iterate(lib, darkening, opposite, r.steps - i)
    ensures r.steps < MaxSteps ==> lib.contrast(r.color, base) >= Target
    ensures forall n :: 0 <= n < r.steps - i ==>
              lib.contrast(Iterate(lib, darkening, opposite, n), base) < Target
    decreases MaxSteps - i
  {
    if lib.contrast(opposite, base) >= Target then
      Search(opposite, i)
    else
      var next := Nudge(lib, darkening, opposite);
      if i > 10 then
        Search(next, i + 1)
      else
        Seek(lib, darkening, base, next, i + 1)
  }

  /** `createContrast(color)`: the result is `color` moved `steps` times in the
      direction chosen by `isLight()` of `color`; at most twelve steps are taken;
      stopping early means the target contrast was reached, and no earlier
      iterate reached it. */
  function CreateContrast(lib: ColorLib, color: Rgba): (r: Search)
    ensures r.steps <= MaxSteps
    ensures r.color == Iterate(lib, lib.isLight(color), color, r.steps)
    ensures r.steps < MaxSteps ==> lib.contrast(r.color, color) >= Target
    ensures forall k :: 0 <= k < r.steps ==>
              lib.contrast(Iterate(lib, lib.isLight(color), color, k), color) < Target
  {
    Seek(lib, lib.isLight(color), color, color, 0)
  }

  /** When no iterate up to the twelfth reaches the target (a near-grey base,
      say), the search runs into the cap rather than stopping early. */
  lemma CapReached(lib: ColorLib, color: Rgba)
    requires forall k :: 0 <= k < MaxSteps ==>
               lib.contrast(Iterate(lib, lib.isLight(color), color, k), color) < Target
    ensures CreateContrast(lib, color).steps == MaxSteps
  {
  }
}

=== FILE: faker.dfy ===
/** The generator's random helpers (`faker` in create-theme-config.ts).
    `Math.random()` is not modelled as a global: it is an injected stream
    `src`, and the n-th call returns `src(n)`. Every helper takes the cursor
    `pos` of the next unread draw and returns the cursor after it, so that the
    order in which the generator consumes draws is explicit. */
module Faker {
  import opened Wrappers

  /** The n-th value returned by `Math.random()`. */
  type Source = nat -> real

  /** A drawn value together with the cursor of the next unread draw. */
  datatype Draw<T> = Draw(value: T, next: nat)

  /** The range `Math.random()` promises: [0, 1). */
  predicate InUnit(x: real) {
    0.0 <= x < 1.0
  }

  /** Every draw of the stream lies in [0, 1). */
  ghost predicate Valid(src: Source) {
    forall n: nat :: InUnit(src(n))
  }

  /** Scaling a unit draw by a positive width and flooring it lands in [0, width). */
  lemma FloorScaled(x: real, width: int)
    ensures InUnit(x) && width >= 1 ==> 0 <= (x * width as real).Floor < width
  {
    if InUnit(x) && width >= 1 {
      assert x * width as real < 1.0 * width as real;
    }
  }

  /** Scaling a unit draw by a positive width stays below the width. */
  lemma ScaledBelow(x: real, width: real)
    ensures InUnit(x) && width > 0.0 ==> 0.0 <= x * width < width
  {
    if InUnit(x) && width > 0.0 {
      assert x * width < 1.0 * width;
    }
  }

  /** `faker.number.int({min, max})`: `Math.floor(random * (max - min + 1)) + min`.
      The source does not check `min <= max`; the range promise needs it. */
  function Int(src: Source, pos: nat, min: int, max: int): (d: Draw<int>)
    ensures d.next == pos + 1
    ensures InUnit(src(pos)) && min <= max ==> min <= d.value <= max
  {
    FloorScaled(src(pos), max - min + 1);
    Draw((src(pos) * (max - min + 1) as real).Floor + min, pos + 1)
  }

  /** `faker.number.float({min, max})`: `random * (max - min) + min`. */
  function Float(src: Source, pos: nat, min: real, max: real): (d: Draw<real>)
    ensures d.next == pos + 1
    ensures InUnit(src(pos)) && min < max ==> min <= d.value < max
  {
    var width := max - min;
    var scaled := src(pos) * width;
    ScaledBelow(src(pos), width);
    Draw(scaled + min, pos + 1)
  }

  /** `faker.datatype.boolean()`: `random < 0.5`. */
  function Boolean(src: Source, pos: nat): (d: Draw<bool>)
    ensures d.next == pos + 1
  {
    Draw(src(pos) < 0.5, pos + 1)
  }

  /** `faker.helpers.arrayElement(arr)`: `arr[Math.floor(random * arr.length)]`;
      an index outside the array reads as `undefined`, modelled as `None`. */
  function ArrayElement<T>(src: Source, pos: nat, arr: seq<T>): (d: Draw<Option<T>>)
    ensures d.next == pos + 1
    ensures InUnit(src(pos)) && |arr| > 0 ==> d.value.Some? && d.value.value in arr
    ensures |arr| == 0 ==> d.value == None
  {
    var index := (src(pos) * |arr| as real).Floor;
    FloorScaled(src(pos), |arr|);
    if 0 <= index < |arr| then
      Draw(Some(arr[index]), pos + 1)
    else
      Draw(None, pos + 1)
  }
}

=== FILE: kebab_case.dfy ===
/** `toKebabCase`: the global replace of `/([a-z])([A-Z])/` by `"$1-$2"`,
    then `toLowerCase()`. Only ASCII letters are given case here. */
module KebabCase {

  predicate IsLower(c: char) {
    'a' <= c <= 'z'
  }

  predicate IsUpper(c: char) {
    'A' <= c <= 'Z'
  }

  function ToLower(c: char): char {
    if IsUpper(c) then (c as int + 32) as char else c
  }

  function ToUpper(c: char): char {
    if IsLower(c) then (c as int - 32) as char else c
  }

  /** No ASCII upper-case letter occurs in `s`. */
  predicate NoUpper(s: string) {
    forall i :: 0 <= i < |s| ==> !IsUpper(s[i])
  }

  /** `s` is a word of lower-case letters. */
  predicate Word(s: string) {
    forall i :: 0 <= i < |s| ==> IsLower(s[i])
  }

  /** `s.toLowerCase()`: every letter lowered in place, nothing else touched. */
  function LowerCase(s: string): (r: string)
    ensures |r| == |s|
    ensures forall i :: 0 <= i < |s| ==> r[i] == ToLower(s[i])
    ensures NoUpper(r)
  {
    if |s| == 0 then "" else [ToLower(s[0])] + LowerCase(s[1..])
  }

  /** A lower-case letter followed by an upper-case one opens `s`: the
      pattern `/([a-z])([A-Z])/` matches at its start. */
  predicate PairAt(s: string) {
    |s| >= 2 && IsLower(s[0]) && IsUpper(s[1])
  }

  /** How many characters one step of the scan consumes. */
  function Width(matched: bool): nat {
    if matched then 2 else 1
  }

  /** `s.replace(/([a-z])([A-Z])/g, "$1-$2")`: scanning left to right, each
      lower-case letter followed by an upper-case one is matched, a hyphen goes
      between them, and the scan resumes after the match. Written with one
      recursive call, so that unfolding it on a literal stays linear. */
  function Hyphenate(s: string): string
    decreases |s|
  {
    if |s| == 0 then ""
    else (if PairAt(s) then [s[0], '-', s[1]] else [s[0]]) + Hyphenate(s[Width(PairAt(s))..])
  }

  function ToKebabCase(s: string): (r: string)
    ensures NoUpper(r)
  {
    LowerCase(Hyphenate(s))
  }

  /** A hyphen with a character after it opens `k`. */
  predicate HyphenAt(k: string) {
    |k| >= 2 && k[0] == '-'
  }

  /** The inverse direction: a hyphen and the letter after it become that
      letter in upper case. */
  function ToCamelCase(k: string): string
    decreases |k|
  {
    if |k| == 0 then ""
    else (if HyphenAt(k) then [ToUpper(k[1])] else [k[0]]) + ToCamelCase(k[Width(HyphenAt(k))..])
  }

  /** A camelCase identifier: no hyphen, and every upper-case letter follows a
      lower-case one. All object keys of the generator have this shape. */
  predicate IsCamel(s: string) {
    && (forall i :: 0 <= i < |s| ==> s[i] != '-')
    && (|s| > 0 ==> !IsUpper(s[0]))
    && (forall i :: 0 < i < |s| && IsUpper(s[i]) ==> IsLower(s[i - 1]))
  }

  /** The hyphen `toKebabCase` puts where `a` and `b` meet. */
  function Seam(a: string, b: string): string {
    if |a| > 0 && |b| > 0 && IsLower(a[|a| - 1]) && IsUpper(b[0]) then "-" else ""
  }

  /** Lowering case works character by character, so it distributes over `+`. */
  lemma {:induction false} LowerCaseAppend(a: string, b: string)
    ensures LowerCase(a + b) == LowerCase(a) + LowerCase(b)
    decreases |a|
  {
    if |a| == 0 {
      assert a + b == b;
    } else {
      assert (a + b)[1..] == a[1..] + b;
      LowerCaseAppend(a[1..], b);
      assert [ToLower(a[0])] + (LowerCase(a[1..]) + LowerCase(b))
          == [ToLower(a[0])] + LowerCase(a[1..]) + LowerCase(b);
    }
  }

  /** The replace at a lower/upper pair that opens the string. */
  lemma HyphenateOfPair(c: char, d: char, t: string)
    requires IsLower(c) && IsUpper(d)
    ensures Hyphenate([c, d] + t) == [c, '-', d] + Hyphenate(t)
  {
    assert ([c, d] + t)[2..] == t;
  }

  /** The replace at a first character that opens no pair. */
  lemma HyphenateOfSingle(c: char, t: string)
    requires !(|t| > 0 && IsLower(c) && IsUpper(t[0]))
    ensures Hyphenate([c] + t) == [c] + Hyphenate(t)
  {
    assert ([c] + t)[1..] == t;
  }

  /** The seam rule for a one-character left part. */
  lemma AppendToChar(a: string, b: string)
    requires |a| == 1
    ensures Hyphenate(a + b) == Hyphenate(a) + Seam(a, b) + Hyphenate(b)
  {
    var c := a[0];
    assert a == [c] && [c] + [] == [c];
    HyphenateOfSingle(c, []);
    if |b| > 0 && IsLower(c) && IsUpper(b[0]) {
      var d, t := b[0], b[1..];
      assert b == [d] + t;
      assert a + b == [c, d] + t;
      HyphenateOfPair(c, d, t);
      HyphenateOfSingle(d, t);
      assert [c, '-', d] + Hyphenate(t) == [c] + "-" + ([d] + Hyphenate(t));
    } else {
      HyphenateOfSingle(c, b);
    }
  }

  /** Regrouping a four-part concatenation. */
  lemma Regroup(p: string, q: string, r: string, s: string)
    ensures p + (q + r + s) == p + q + r + s
  {
  }

  /** The seam rule carries over a lower/upper pair that opens `a`. */
  lemma AppendAfterPair(a: string, b: string)
    requires PairAt(a)
    requires Hyphenate(a[2..] + b) == Hyphenate(a[2..]) + Seam(a[2..], b) + Hyphenate(b)
    ensures Hyphenate(a + b) == Hyphenate(a) + Seam(a, b) + Hyphenate(b)
  {
    var t, p := a[2..], [a[0], '-', a[1]];
    assert (a + b)[2..] == t + b;
    assert Hyphenate(a + b) == p + Hyphenate(t + b);
    assert Hyphenate(a) == p + Hyphenate(t);
    assert Seam(t, b) == Seam(a, b);
    Regroup(p, Hyphenate(t), Seam(a, b), Hyphenate(b));
  }

  /** The seam rule carries over a first character of `a` that opens no pair. */
  lemma AppendAfterSingle(a: string, b: string)
    requires |a| >= 2 && !PairAt(a)
    requires Hyphenate(a[1..] + b) == Hyphenate(a[1..]) + Seam(a[1..], b) + Hyphenate(b)
    ensures Hyphenate(a + b) == Hyphenate(a) + Seam(a, b) + Hyphenate(b)
  {
    var t, p := a[1..], [a[0]];
    assert (a + b)[1..] == t + b;
    assert Hyphenate(a + b) == p + Hyphenate(t + b);
    assert Hyphenate(a) == p + Hyphenate(t);
    assert Seam(t, b) == Seam(a, b);
    Regroup(p, Hyphenate(t), Seam(a, b), Hyphenate(b));
  }

  /** The replace treats a concatenation piecewise: the only new hyphen is at
      the seam. */
  lemma {:induction false} HyphenateAppend(a: string, b: string)
    ensures Hyphenate(a + b) == Hyphenate(a) + Seam(a, b) + Hyphenate(b)
    decreases |a|
  {
    if |a| == 0 {
      assert a + b == b;
    } else if |a| == 1 {
      AppendToChar(a, b);
    } else if PairAt(a) {
      HyphenateAppend(a[2..], b);
      AppendAfterPair(a, b);
    } else {
      HyphenateAppend(a[1..], b);
      AppendAfterSingle(a, b);
    }
  }

  /** `toKebabCase` of a concatenation is the pieces' kebab forms joined at the seam. */
  lemma KebabAppend(a: string, b: string)
    ensures ToKebabCase(a + b) == ToKebabCase(a) + Seam(a, b) + ToKebabCase(b)
  {
    HyphenateAppend(a, b);
    LowerCaseAppend(Hyphenate(a) + Seam(a, b), Hyphenate(b));
    LowerCaseAppend(Hyphenate(a), Seam(a, b));
    assert LowerCase(Seam(a, b)) == Seam(a, b);
  }

  /** A word without upper-case letters is its own kebab form. */
  lemma {:induction false} KebabOfLowerWord(w: string)
    requires NoUpper(w)
    ensures ToKebabCase(w) == w
    decreases |w|
  {
    if |w| > 0 {
      assert w == [w[0]] + w[1..];
      KebabAppend([w[0]], w[1..]);
      KebabOfLowerWord(w[1..]);
    }
  }

  /** A capitalised word loses only its capital. */
  lemma KebabOfCapitalWord(w: string)
    requires |w| > 0 && IsUpper(w[0]) && NoUpper(w[1..])
    ensures ToKebabCase(w) == [ToLower(w[0])] + w[1..]
  {
    assert w == [w[0]] + w[1..];
    KebabAppend([w[0]], w[1..]);
    KebabOfLowerWord(w[1..]);
  }

  /** A lower-case word followed by a capitalised one, as in `cardForeground`. */
  lemma KebabOfTwoWords(a: string, b: string)
    requires |a| > 0 && NoUpper(a) && IsLower(a[|a| - 1])
    requires |b| > 0 && IsUpper(b[0]) && NoUpper(b[1..])
    ensures ToKebabCase(a + b) == a + "-" + [ToLower(b[0])] + b[1..]
  {
    KebabAppend(a, b);
    KebabOfLowerWord(a);
    KebabOfCapitalWord(b);
  }

  /** A key made of one lower-case word: camelCase, and kept as it is. */
  lemma KebabOfWord(w: string)
    requires Word(w)
    ensures IsCamel(w) && ToKebabCase(w) == w
  {
    KebabOfLowerWord(w);
  }

  /** A key made of a lower-case word `h` followed by nothing or by one
      capitalised word `t` (`card`, `cardForeground`) is camelCase, and
      `toKebabCase` splits it by a hyphen with the capital lowered. */
  lemma KebabOfKey(h: string, t: string)
    requires |h| > 0 && Word(h)
    requires t == [] || (IsUpper(t[0]) && Word(t[1..]))
    ensures IsCamel(h + t)
    ensures ToKebabCase(h + t) == h + (if t == [] then [] else "-" + [ToLower(t[0])] + t[1..])
  {
    if t == [] {
      assert h + t == h;
      KebabOfWord(h);
    } else {
      var name := h + t;
      KebabOfTwoWords(h, t);
      assert forall i :: 0 <= i < |h| ==> name[i] == h[i];
      assert forall i :: |h| < i < |name| ==> name[i] == t[i - |h|];
    }
  }

  /** `toKebabCase` at a lower/upper pair that opens the string. */
  lemma KebabOfPair(s: string)
    requires PairAt(s)
    ensures ToKebabCase(s) == [s[0], '-', ToLower(s[1])] + ToKebabCase(s[2..])
  {
    LowerCaseAppend([s[0], '-', s[1]], Hyphenate(s[2..]));
    assert LowerCase([s[1]]) == [ToLower(s[1])];
    assert LowerCase(['-', s[1]]) == ['-', ToLower(s[1])];
  }

  /** `toKebabCase` at a first character that opens no pair. */
  lemma KebabOfSingle(s: string)
    requires |s| >= 1 && !PairAt(s)
    ensures ToKebabCase(s) == [ToLower(s[0])] + ToKebabCase(s[1..])
  {
    LowerCaseAppend([s[0]], Hyphenate(s[1..]));
  }

  /** `ToCamelCase` passes over a character that is not a hyphen. */
  lemma CamelOfPlain(c: char, t: string)
    requires c != '-'
    ensures ToCamelCase([c] + t) == [c] + ToCamelCase(t)
  {
    assert ([c] + t)[1..] == t;
  }

  /** `ToCamelCase` capitalises the letter after a hyphen. */
  lemma CamelOfHyphen(d: char, t: string)
    ensures ToCamelCase(['-', d] + t) == [ToUpper(d)] + ToCamelCase(t)
  {
    assert (['-', d] + t)[2..] == t;
  }

  /** A suffix of a camelCase identifier that does not start at an upper-case
      letter is camelCase. */
  lemma CamelSuffix(s: string, k: nat)
    requires IsCamel(s) && k <= |s|
    requires k < |s| ==> !IsUpper(s[k])
    ensures IsCamel(s[k..])
  {
    var rest := s[k..];
    forall i | 0 < i < |rest| && IsUpper(rest[i])
      ensures IsLower(rest[i - 1])
    {
      assert rest[i] == s[i + k] && rest[i - 1] == s[i + k - 1];
    }
  }

  /** The round trip carries over a lower/upper pair that opens `s`. */
  lemma RoundTripAfterPair(s: string)
    requires PairAt(s)
    requires ToCamelCase(ToKebabCase(s[2..])) == s[2..]
    ensures ToCamelCase(ToKebabCase(s)) == s
  {
    var tail := ToKebabCase(s[2..]);
    KebabOfPair(s);
    assert [s[0], '-', ToLower(s[1])] + tail == [s[0]] + (['-', ToLower(s[1])] + tail);
    CamelOfPlain(s[0], ['-', ToLower(s[1])] + tail);
    CamelOfHyphen(ToLower(s[1]), tail);
    assert ToUpper(ToLower(s[1])) == s[1];
    assert s == [s[0]] + ([s[1]] + s[2..]);
  }

  /** The round trip carries over a first character of `s` that is neither a
      hyphen nor upper case and opens no pair. */
  lemma RoundTripAfterSingle(s: string)
    requires |s| >= 1 && s[0] != '-' && !IsUpper(s[0])
    requires !PairAt(s)
    requires ToCamelCase(ToKebabCase(s[1..])) == s[1..]
    ensures ToCamelCase(ToKebabCase(s)) == s
  {
    KebabOfSingle(s);
    CamelOfPlain(s[0], ToKebabCase(s[1..]));
    assert s == [s[0]] + s[1..];
  }

  /** `toKebabCase` loses nothing on camelCase input: converting back gives
      the identifier again. */
  lemma {:induction false} KebabRoundTrip(s: string)
    requires IsCamel(s)
    ensures ToCamelCase(ToKebabCase(s)) == s
    decreases |s|
  {
    if |s| == 0 {
    } else if PairAt(s) {
      assert |s| > 2 ==> !IsUpper(s[2]);
      CamelSuffix(s, 2);
      KebabRoundTrip(s[2..]);
      RoundTripAfterPair(s);
    } else {
      assert |s| > 1 ==> !IsUpper(s[1]);
      CamelSuffix(s, 1);
      KebabRoundTrip(s[1..]);
      RoundTripAfterSingle(s);
    }
  }

  /** Hence `toKebabCase` never maps two camelCase identifiers to one name. */
  lemma KebabInjective(a: string, b: string)
    requires IsCamel(a) && IsCamel(b)
    ensures ToKebabCase(a) == ToKebabCase(b) ==> a == b
  {
    KebabRoundTrip(a);
    KebabRoundTrip(b);
  }
}

=== FILE: palette.dfy ===
/** The result of `createThemeConfig` for one colour scheme: an object with
    one HSL colour per role, keyed by the role's camelCase name. */
module Palette {
  import opened Colord

  /** The closed set of colour roles the generator produces. */
  datatype Role =
    | Background
    | Foreground
    | Card
    | CardForeground
    | Popover
    | PopoverForeground
    | Primary
    | PrimaryForeground
    | Secondary
    | SecondaryForeground
    | Accent
    | AccentForeground
    | Destructive
    | DestructiveForeground
    | Muted
    | MutedForeground
    | Border
    | Input
    | Ring
    | Unlocked
    | Long
    | LongForeground
    | LongInside
    | Short
    | ShortForeground
    | ShortInside
    | Tp
    | TpForeground
    | TpInside
    | TpLight
    | Sl
    | SlForeground
    | SlInside
    | ChartBg

  /** The key order of the object literal the generator returns, which is the
      order `Object.entries` visits. */
  const RoleOrder: seq<Role> := [
    Background, Foreground, Card, CardForeground,
    Popover, PopoverForeground, Primary, PrimaryForeground,
    Secondary, SecondaryForeground, Accent, AccentForeground,
    Destructive, DestructiveForeground, Muted, MutedForeground,
    Border, Input, Ring, Unlocked,
    Long, LongForeground, LongInside, Short,
    ShortForeground, ShortInside, Tp, TpForeground,
    TpInside, TpLight, Sl, SlForeground,
    SlInside, ChartBg
  ]

  /** The first word of a role's key, all lower case. */
  function Head(r: Role): string {
    match r
    case Background => "background"
    case Foreground => "foreground"
    case Card => "card"
    case CardForeground => "card"
    case Popover => "popover"
    case PopoverForeground => "popover"
    case Primary => "primary"
    case PrimaryForeground => "primary"
    case Secondary => "secondary"
    case SecondaryForeground => "secondary"
    case Accent => "accent"
    case AccentForeground => "accent"
    case Destructive => "destructive"
    case DestructiveForeground => "destructive"
    case Muted => "muted"
    case MutedForeground => "muted"
    case Border => "border"
    case Input => "input"
    case Ring => "ring"
    case Unlocked => "unlocked"
    case Long => "long"
    case LongForeground => "long"
    case LongInside => "long"
    case Short => "short"
    case ShortForeground => "short"
    case ShortInside => "short"
    case Tp => "tp"
    case TpForeground => "tp"
    case TpInside => "tp"
    case TpLight => "tp"
    case Sl => "sl"
    case SlForeground => "sl"
    case SlInside => "sl"
    case ChartBg => "chart"
  }

  /** The rest of a role's key: empty, or one capitalised word. */
  function Tail(r: Role): string {
    match r
    case Background => ""
    case Foreground => ""
    case Card => ""
    case CardForeground => "Foreground"
    case Popover => ""
    case PopoverForeground => "Foreground"
    case Primary => ""
    case PrimaryForeground => "Foreground"
    case Secondary => ""
    case SecondaryForeground => "Foreground"
    case Accent => ""
    case AccentForeground => "Foreground"
    case Destructive => ""
    case DestructiveForeground => "Foreground"
    case Muted => ""
    case MutedForeground => "Foreground"
    case Border => ""
    case Input => ""
    case Ring => ""
    case Unlocked => ""
    case Long => ""
    case LongForeground => "Foreground"
    case LongInside => "Inside"
    case Short => ""
    case ShortForeground => "Foreground"
    case ShortInside => "Inside"
    case Tp => ""
    case TpForeground => "Foreground"
    case TpInside => "Inside"
    case TpLight => "Light"
    case Sl => ""
    case SlForeground => "Foreground"
    case SlInside => "Inside"
    case ChartBg => "Bg"
  }

  /** The object key of a role, in camelCase: `Head` followed by `Tail`. */
  function Name(r: Role): string {
    Head(r) + Tail(r)
  }

  /** One scheme's colours, a field per role. */
  datatype Palette = Palette(
    background: Hsl, foreground: Hsl, card: Hsl, cardForeground: Hsl,
    popover: Hsl, popoverForeground: Hsl, primary: Hsl, primaryForeground: Hsl,
    secondary: Hsl, secondaryForeground: Hsl, accent: Hsl, accentForeground: Hsl,
    destructive: Hsl, destructiveForeground: Hsl, muted: Hsl, mutedForeground: Hsl,
    border: Hsl, input: Hsl, ring: Hsl, unlocked: Hsl,
    long: Hsl, longForeground: Hsl, longInside: Hsl, short: Hsl,
    shortForeground: Hsl, shortInside: Hsl, tp: Hsl, tpForeground: Hsl,
    tpInside: Hsl, tpLight: Hsl, sl: Hsl, slForeground: Hsl,
    slInside: Hsl, chartBg: Hsl) {

    /** The colour stored under a role. */
    function Get(r: Role): Hsl {
      match r
      case Background => background
      case Foreground => foreground
      case Card => card
      case CardForeground => cardForeground
      case Popover => popover
      case PopoverForeground => popoverForeground
      case Primary => primary
      case PrimaryForeground => primaryForeground
      case Secondary => secondary
      case SecondaryForeground => secondaryForeground
      case Accent => accent
      case AccentForeground => accentForeground
      case Destructive => destructive
      case DestructiveForeground => destructiveForeground
      case Muted => muted
      case MutedForeground => mutedForeground
      case Border => border
      case Input => input
      case Ring => ring
      case Unlocked => unlocked
      case Long => long
      case LongForeground => longForeground
      case LongInside => longInside
      case Short => short
      case ShortForeground => shortForeground
      case ShortInside => shortInside
      case Tp => tp
      case TpForeground => tpForeground
      case TpInside => tpInside
      case TpLight => tpLight
      case Sl => sl
      case SlForeground => slForeground
      case SlInside => slInside
      case ChartBg => chartBg
    }
  }

  /** The position of a role in `RoleOrder`. */
  function Index(r: Role): nat {
    match r
    case Background => 0
    case Foreground => 1
    case Card => 2
    case CardForeground => 3
    case Popover => 4
    case PopoverForeground => 5
    case Primary => 6
    case PrimaryForeground => 7
    case Secondary => 8
    case SecondaryForeground => 9
    case Accent => 10
    case AccentForeground => 11
    case Destructive => 12
    case DestructiveForeground => 13
    case Muted => 14
    case MutedForeground => 15
    case Border => 16
    case Input => 17
    case Ring => 18
    case Unlocked => 19
    case Long => 20
    case LongForeground => 21
    case LongInside => 22
    case Short => 23
    case ShortForeground => 24
    case ShortInside => 25
    case Tp => 26
    case TpForeground => 27
    case TpInside => 28
    case TpLight => 29
    case Sl => 30
    case SlForeground => 31
    case SlInside => 32
    case ChartBg => 33
  }

  lemma IndexedFirst()
    ensures forall i :: 0 <= i < 12 ==> Index(RoleOrder[i]) == i
  {
  }

  lemma IndexedMiddle()
    ensures forall i :: 12 <= i < 23 ==> Index(RoleOrder[i]) == i
  {
  }

  lemma IndexedLast()
    ensures forall i :: 23 <= i < 34 ==> Index(RoleOrder[i]) == i
  {
  }

  /** `RoleOrder` has 34 entries, each role's `Index` is its position, and
      so no role appears twice. */
  lemma RoleOrderDistinct()
    ensures |RoleOrder| == 34
    ensures forall i :: 0 <= i < |RoleOrder| ==> Index(RoleOrder[i]) == i
    ensures forall i, j :: 0 <= i < j < |RoleOrder| ==> RoleOrder[i] != RoleOrder[j]
  {
    IndexedFirst();
    IndexedMiddle();
    IndexedLast();
  }

  lemma PlacedFirst(r: Role)
    requires Index(r) < 9
    ensures RoleOrder[Index(r)] == r
  {
  }

  lemma PlacedSecond(r: Role)
    requires 9 <= Index(r) < 18
    ensures RoleOrder[Index(r)] == r
  {
  }

  lemma PlacedThird(r: Role)
    requires 18 <= Index(r) < 26
    ensures RoleOrder[Index(r)] == r
  {
  }

  lemma PlacedFourth(r: Role)
    requires 26 <= Index(r)
    ensures RoleOrder[Index(r)] == r
  {
  }

  /** `RoleOrder` misses no role: every role sits at its `Index`. */
  lemma RoleOrderComplete(r: Role)
    ensures Index(r) < |RoleOrder| && RoleOrder[Index(r)] == r
  {
    if Index(r) < 9 {
      PlacedFirst(r);
    } else if Index(r) < 18 {
      PlacedSecond(r);
    } else if Index(r) < 26 {
      PlacedThird(r);
    } else {
      PlacedFourth(r);
    }
  }
}

=== FILE: random_theme.dfy ===
/** `createRandomTheme` and its `toKebabCase` step: each scheme's palette is
    turned into a list of `{title, variable, color}` entries, one per key in key
    order, where the variable is `--` followed by the kebab-cased key and the
    title is looked up in `themeColors` by that variable. */
module RandomTheme {
  import opened Wrappers
  import opened Colord
  import opened Faker
  import opened Palette
  import opened Theme
  import opened KebabCase
  import opened ThemeConfig

  /** `"--" + toKebabCase(name)`: the CSS variable a role is published under. */
  function Variable(r: Role): (v: string)
    ensures |v| >= 2 && v[..2] == "--"
    ensures NoUpper(v)
  {
    "--" + ToKebabCase(Name(r))
  }

  /** Every key is one lower-case word, followed by nothing or by one
      capitalised word. */
  predicate KeyShaped(r: Role) {
    && |Head(r)| > 0 && Word(Head(r))
    && (Tail(r) == [] || (IsUpper(Tail(r)[0]) && Word(Tail(r)[1..])))
  }

  /** The first words of the keys are lower-case words. */
  lemma FirstWordsLower()
    ensures Word("background") && Word("foreground") && Word("card") && Word("popover")
    ensures Word("primary") && Word("secondary") && Word("accent") && Word("destructive") && Word("muted")
  {
  }

  lemma MoreFirstWordsLower()
    ensures Word("border") && Word("input") && Word("ring") && Word("unlocked")
    ensures Word("long") && Word("short") && Word("tp") && Word("sl") && Word("chart")
  {
  }

  /** The second words of the keys, after their capital, are lower case. */
  lemma SecondWordsLower()
    ensures Word("oreground") && Word("nside") && Word("ight") && Word("g")
  {
  }

  lemma FirstWordShaped(r: Role)
    ensures |Head(r)| > 0 && Word(Head(r))
  {
    FirstWordsLower();
    MoreFirstWordsLower();
  }

  lemma SecondWordShaped(r: Role)
    ensures Tail(r) == [] || (IsUpper(Tail(r)[0]) && Word(Tail(r)[1..]))
  {
    SecondWordsLower();
  }

  lemma KeysShaped(r: Role)
    ensures KeyShaped(r)
  {
    FirstWordShaped(r);
    SecondWordShaped(r);
  }

  /** A variable written out word by word: `--`, the first word, and, when
      there is a second word, a hyphen and that word with its capital lowered. */
  function Spelled(r: Role): string {
    "--" + Head(r) + (if Tail(r) == [] then [] else "-" + [ToLower(Tail(r)[0])] + Tail(r)[1..])
  }

  /** Every key is camelCase, and its variable is the key split at the word
      boundary by a hyphen, all in lower case. */
  lemma VariableSpelled(r: Role)
    ensures IsCamel(Name(r)) && Variable(r) == Spelled(r)
  {
    KeysShaped(r);
    var h, t := Head(r), Tail(r);
    var rest := if t == [] then [] else "-" + [ToLower(t[0])] + t[1..];
    KebabOfKey(h, t);
    assert "--" + (h + rest) == "--" + h + rest;
  }

  /** The row of `themeColors` written for a role; `chartBg` has the last one. */
  function RowOf(r: Role): (k: nat)
    ensures k < 34
    ensures k == 33 <==> r == ChartBg
  {
    match r

    case Background => 4
    case Foreground => 5
    case Card => 6
    case CardForeground => 7
    case Popover => 8
    case PopoverForeground => 9
    case Primary => 0
    case PrimaryForeground => 1
    case Secondary => 2
    case SecondaryForeground => 3
    case Accent => 12
    case AccentForeground => 13
    case Destructive => 14
    case DestructiveForeground => 15
    case Muted => 10
    case MutedForeground => 11
    case Border => 16
    case Input => 17
    case Ring => 18
    case Unlocked => 19
    case Long => 20
    case LongForeground => 21
    case LongInside => 22
    case Short => 23
    case ShortForeground => 24
    case ShortInside => 25
    case Tp => 26
    case TpForeground => 27
    case TpInside => 28
    case TpLight => 29
    case Sl => 30
    case SlForeground => 31
    case SlInside => 32
    case ChartBg => 33
  }

  // ---------------------------------------------------------------------------
  // Proof scaffolding for `RowVariable`. They add nothing to the model: asking
  // the verifier to evaluate `ToKebabCase` on a literal key is very costly, so
  // each key's variable is spelt out once (`Spelled*`), the table is read in
  // eight-row slices (`Table*`), and the two are matched in blocks (`Rows*`).

  lemma SpelledPrimary()
    ensures Spelled(Primary) == "--primary"
  {
  }

  lemma SpelledPrimaryForeground()
    ensures Spelled(PrimaryForeground) == "--primary-foreground"
  {
  }

  lemma SpelledSecondary()
    ensures Spelled(Secondary) == "--secondary"
  {
  }

  lemma SpelledSecondaryForeground()
    ensures Spelled(SecondaryForeground) == "--secondary-foreground"
  {
  }

  lemma SpelledBackground()
    ensures Spelled(Background) == "--background"
  {
  }

  lemma SpelledForeground()
    ensures Spelled(Foreground) == "--foreground"
  {
  }

  lemma SpelledCard()
    ensures Spelled(Card) == "--card"
  {
  }

  lemma SpelledCardForeground()
    ensures Spelled(CardForeground) == "--card-foreground"
  {
  }

  lemma SpelledPopover()
    ensures Spelled(Popover) == "--popover"
  {
  }

  lemma SpelledPopoverForeground()
    ensures Spelled(PopoverForeground) == "--popover-foreground"
  {
  }

  lemma SpelledMuted()
    ensures Spelled(Muted) == "--muted"
  {
  }

  lemma SpelledMutedForeground()
    ensures Spelled(MutedForeground) == "--muted-foreground"
  {
  }

  lemma SpelledAccent()
    ensures Spelled(Accent) == "--accent"
  {
  }

  lemma SpelledAccentForeground()
    ensures Spelled(AccentForeground) == "--accent-foreground"
  {
  }

  lemma SpelledDestructive()
    ensures Spelled(Destructive) == "--destructive"
  {
  }

  lemma SpelledDestructiveForeground()
    ensures Spelled(DestructiveForeground) == "--destructive-foreground"
  {
  }

  lemma SpelledBorder()
    ensures Spelled(Border) == "--border"
  {
  }

  lemma SpelledInput()
    ensures Spelled(Input) == "--input"
  {
  }

  lemma SpelledRing()
    ensures Spelled(Ring) == "--ring"
  {
  }

  lemma SpelledUnlocked()
    ensures Spelled(Unlocked) == "--unlocked"
  {
  }

  lemma SpelledLong()
    ensures Spelled(Long) == "--long"
  {
  }

  lemma SpelledLongForeground()
    ensures Spelled(LongForeground) == "--long-foreground"
  {
  }

  lemma SpelledLongInside()
    ensures Spelled(LongInside) == "--long-inside"
  {
  }

  lemma SpelledShort()
    ensures Spelled(Short) == "--short"
  {
  }

  lemma SpelledShortForeground()
    ensures Spelled(ShortForeground) == "--short-foreground"
  {
  }

  lemma SpelledShortInside()
    ensures Spelled(ShortInside) == "--short-inside"
  {
  }

  lemma SpelledTp()
    ensures Spelled(Tp) == "--tp"
  {
  }

  lemma SpelledTpForeground()
    ensures Spelled(TpForeground) == "--tp-foreground"
  {
  }

  lemma SpelledTpInside()
    ensures Spelled(TpInside) == "--tp-inside"
  {
  }

  lemma SpelledTpLight()
    ensures Spelled(TpLight) == "--tp-light"
  {
  }

  lemma SpelledSl()
    ensures Spelled(Sl) == "--sl"
  {
  }

  lemma SpelledSlForeground()
    ensures Spelled(SlForeground) == "--sl-foreground"
  {
  }

  lemma SpelledSlInside()
    ensures Spelled(SlInside) == "--sl-inside"
  {
  }

  lemma SpelledChartBg()
    ensures Spelled(ChartBg) == "--chart-bg"
  {
  }

  lemma Table0To7()
    ensures ThemeColors[..8] == [
      ThemeColor("Primary", "--primary"),
      ThemeColor("Primary Foreground", "--primary-foreground"),
      ThemeColor("Secondary", "--secondary"),
      ThemeColor("Secondary Foreground", "--secondary-foreground"),
      ThemeColor("Background", "--background"),
      ThemeColor("Foreground", "--foreground"),
      ThemeColor("Card", "--card"),
      ThemeColor("Card Foreground", "--card-foreground")]
  {
  }

  lemma Table8To15()
    ensures ThemeColors[8..][..8] == [
      ThemeColor("Popover", "--popover"),
      ThemeColor("Popover Foreground", "--popover-foreground"),
      ThemeColor("Muted", "--muted"),
      ThemeColor("Muted Foreground", "--muted-foreground"),
      ThemeColor("Accent", "--accent"),
      ThemeColor("Accent Foreground", "--accent-foreground"),
      ThemeColor("Destructive", "--destructive"),
      ThemeColor("Destructive Foreground", "--destructive-foreground")]
  {
  }

  lemma Table16To23()
    ensures ThemeColors[16..][..8] == [
      ThemeColor("Border", "--border"),
      ThemeColor("Input", "--input"),
      ThemeColor("Ring", "--ring"),
      ThemeColor("Unlocked", "--unlocked"),
      ThemeColor("Long", "--long"),
      ThemeColor("Long Foreground", "--long-foreground"),
      ThemeColor("Long Inside", "--long-inside"),
      ThemeColor("Short", "--short")]
  {
  }

  lemma Table24To33()
    ensures ThemeColors[24..] == [
      ThemeColor("Short Foreground", "--short-foreground"),
      ThemeColor("Short Inside", "--short-inside"),
      ThemeColor("TP", "--tp"),
      ThemeColor("TP Foreground", "--tp-foreground"),
      ThemeColor("TP Inside", "--tp-inside"),
      ThemeColor("TP Light", "--tp-light"),
      ThemeColor("SL", "--sl"),
      ThemeColor("SL Foreground", "--sl-foreground"),
      ThemeColor("SL Inside", "--sl-inside"),
      ThemeColor("Chart Background", "--chartBg")]
  {
  }

  lemma Rows0To3(r: Role)
    requires RowOf(r) < 4
    ensures Spelled(r) == ThemeColors[RowOf(r)].variable
  {
    Table0To7();
    assert ThemeColors[RowOf(r)].variable == ThemeColors[..8][RowOf(r)].variable;
    match r
    case Primary => SpelledPrimary();
    case PrimaryForeground => SpelledPrimaryForeground();
    case Secondary => SpelledSecondary();
    case SecondaryForeground => SpelledSecondaryForeground();
    case _ => assert false;
  }

  lemma Rows4To7(r: Role)
    requires 4 <= RowOf(r) < 8
    ensures Spelled(r) == ThemeColors[RowOf(r)].variable
  {
    Table0To7();
    assert ThemeColors[RowOf(r)].variable == ThemeColors[..8][RowOf(r)].variable;
    match r
    case Background => SpelledBackground();
    case Foreground => SpelledForeground();
    case Card => SpelledCard();
    case CardForeground => SpelledCardForeground();
    case _ => assert false;
  }

  lemma Rows8To11(r: Role)
    requires 8 <= RowOf(r) < 12
    ensures Spelled(r) == ThemeColors[RowOf(r)].variable
  {
    Table8To15();
    assert ThemeColors[RowOf(r)].variable == ThemeColors[8..][..8][RowOf(r) - 8].variable;
    match r
    case Popover => SpelledPopover();
    case PopoverForeground => SpelledPopoverForeground();
    case Muted => SpelledMuted();
    case MutedForeground => SpelledMutedForeground();
    case _ => assert false;
  }

  lemma Rows12To15(r: Role)
    requires 12 <= RowOf(r) < 16
    ensures Spelled(r) == ThemeColors[RowOf(r)].variable
  {
    Table8To15();
    assert ThemeColors[RowOf(r)].variable == ThemeColors[8..][..8][RowOf(r) - 8].variable;
    match r
    case Accent => SpelledAccent();
    case AccentForeground => SpelledAccentForeground();
    case Destructive => SpelledDestructive();
    case DestructiveForeground => SpelledDestructiveForeground();
    case _ => assert false;
  }

  lemma Rows16To19(r: Role)
    requires 16 <= RowOf(r) < 20
    ensures Spelled(r) == ThemeColors[RowOf(r)].variable
  {
    Table16To23();
    assert ThemeColors[RowOf(r)].variable == ThemeColors[16..][..8][RowOf(r) - 16].variable;
    match r
    case Border => SpelledBorder();
    case Input => SpelledInput();
    case Ring => SpelledRing();
    case Unlocked => SpelledUnlocked();
    case _ => assert false;
  }

  lemma Rows20To23(r: Role)
    requires 20 <= RowOf(r) < 24
    ensures Spelled(r) == ThemeColors[RowOf(r)].variable
  {
    Table16To23();
    assert ThemeColors[RowOf(r)].variable == ThemeColors[16..][..8][RowOf(r) - 16].variable;
    match r
    case Long => SpelledLong();
    case LongForeground => SpelledLongForeground();
    case LongInside => SpelledLongInside();
    case Short => SpelledShort();
    case _ => assert false;
  }

  lemma Rows24To27(r: Role)
    requires 24 <= RowOf(r) < 28
    ensures Spelled(r) == ThemeColors[RowOf(r)].variable
  {
    Table24To33();
    assert ThemeColors[RowOf(r)].variable == ThemeColors[24..][RowOf(r) - 24].variable;
    match r
    case ShortForeground => SpelledShortForeground();
    case ShortInside => SpelledShortInside();
    case Tp => SpelledTp();
    case TpForeground => SpelledTpForeground();
    case _ => assert false;
  }

  lemma Rows28To32(r: Role)
    requires 28 <= RowOf(r) < 33
    ensures Spelled(r) == ThemeColors[RowOf(r)].variable
  {
    Table24To33();
    assert ThemeColors[RowOf(r)].variable == ThemeColors[24..][RowOf(r) - 24].variable;
    match r
    case TpInside => SpelledTpInside();
    case TpLight => SpelledTpLight();
    case Sl => SpelledSl();
    case SlForeground => SpelledSlForeground();
    case SlInside => SpelledSlInside();
    case _ => assert false;
  }

  /** Every role but `chartBg` finds its own variable in its row of the table. */
  lemma RowVariable(r: Role)
    requires r != ChartBg
    ensures Variable(r) == ThemeColors[RowOf(r)].variable
  {
    VariableSpelled(r);
    if RowOf(r) < 4 {
      Rows0To3(r);
    } else if RowOf(r) < 8 {
      Rows4To7(r);
    } else if RowOf(r) < 12 {
      Rows8To11(r);
    } else if RowOf(r) < 16 {
      Rows12To15(r);
    } else if RowOf(r) < 20 {
      Rows16To19(r);
    } else if RowOf(r) < 24 {
      Rows20To23(r);
    } else if RowOf(r) < 28 {
      Rows24To27(r);
    } else {
      Rows28To32(r);
    }
  }

  /** No row of the table holds `--chart-bg`: its row says `--chartBg`. */
  lemma ChartBgUnlisted()
    ensures forall i :: 0 <= i < |ThemeColors| ==> ThemeColors[i].variable != "--chart-bg"
  {
  }

  /** The role a row of the table was written for. */
  function RoleOfRow(k: nat): Role {
    match k
    case 0 => Primary
    case 1 => PrimaryForeground
    case 2 => Secondary
    case 3 => SecondaryForeground
    case 4 => Background
    case 5 => Foreground
    case 6 => Card
    case 7 => CardForeground
    case 8 => Popover
    case 9 => PopoverForeground
    case 10 => Muted
    case 11 => MutedForeground
    case 12 => Accent
    case 13 => AccentForeground
    case 14 => Destructive
    case 15 => DestructiveForeground
    case 16 => Border
    case 17 => Input
    case 18 => Ring
    case 19 => Unlocked
    case 20 => Long
    case 21 => LongForeground
    case 22 => LongInside
    case 23 => Short
    case 24 => ShortForeground
    case 25 => ShortInside
    case 26 => Tp
    case 27 => TpForeground
    case 28 => TpInside
    case 29 => TpLight
    case 30 => Sl
    case 31 => SlForeground
    case 32 => SlInside
    case _ => ChartBg
  }

  lemma RowOfInverseFirst(r: Role)
    requires RowOf(r) < 17
    ensures RoleOfRow(RowOf(r)) == r
  {
  }

  lemma RowOfInverseLast(r: Role)
    requires 17 <= RowOf(r)
    ensures RoleOfRow(RowOf(r)) == r
  {
  }

  /** Different roles have different rows. */
  lemma RowOfInjective(a: Role, b: Role)
    ensures RowOf(a) == RowOf(b) ==> a == b
  {
    if RowOf(a) < 17 { RowOfInverseFirst(a); } else { RowOfInverseLast(a); }
    if RowOf(b) < 17 { RowOfInverseFirst(b); } else { RowOfInverseLast(b); }
  }

  /** `getColorTitle` of a role's variable: `chartBg` finds no row, so its
      title is `undefined` whatever the non-null assertion after the call
      claims; every other role finds the title of its own row. */
  lemma TitleOfRole(r: Role)
    ensures GetColorTitle(Variable(r)).None? <==> r == ChartBg
    ensures r != ChartBg ==> GetColorTitle(Variable(r)) == Some(ThemeColors[RowOf(r)].title)
  {
    TableShape();
    if r == ChartBg {
      VariableSpelled(r);
      SpelledChartBg();
      ChartBgUnlisted();
    } else {
      RowVariable(r);
      TableDistinct();
      FindTitleAt(ThemeColors, RowOf(r));
    }
  }

  /** `--chart-bg` is no other role's variable. */
  lemma ChartBgApart(c: Role, o: Role)
    requires c == ChartBg && o != ChartBg
    ensures Variable(c) != Variable(o)
  {
    TableShape();
    VariableSpelled(c);
    SpelledChartBg();
    RowVariable(o);
    ChartBgUnlisted();
  }

  /** Two different roles that both have rows have different variables. */
  lemma ListedApart(a: Role, b: Role)
    requires a != ChartBg && b != ChartBg && a != b
    ensures Variable(a) != Variable(b)
  {
    TableShape();
    RowVariable(a);
    RowVariable(b);
    RowOfInjective(a, b);
    TableDistinct();
  }

  /** Distinct roles are published under distinct variables. */
  lemma VariableInjective(a: Role, b: Role)
    ensures Variable(a) == Variable(b) ==> a == b
  {
    if a != b {
      if a == ChartBg {
        ChartBgApart(a, b);
      } else if b == ChartBg {
        ChartBgApart(b, a);
      } else {
        ListedApart(a, b);
      }
    }
  }

  /** The keys of a palette are distinct. */
  lemma NameInjective(a: Role, b: Role)
    ensures Name(a) == Name(b) ==> a == b
  {
    VariableInjective(a, b);
  }

  /** Dropping the `--` and undoing the kebab case gives the key back. */
  lemma VariableRoundTrip(r: Role)
    ensures |Variable(r)| > 2 && Variable(r)[..2] == "--"
    ensures ToCamelCase(Variable(r)[2..]) == Name(r)
  {
    KeysShaped(r);
    VariableSpelled(r);
    KebabRoundTrip(Name(r));
    assert Variable(r)[2..] == ToKebabCase(Name(r));
  }

  /** One element of a scheme's list, `{title, variable, color}`. The title is
      `getColorTitle(variable)`; the `!` after that call only silences the type
      checker, so a variable outside the table leaves the title `undefined`,
      modelled as `None`. */
  datatype ThemeEntry = ThemeEntry(title: Option<string>, variable: string, color: Hsl)

  /** The entry pushed for one key of a palette: the role's variable and
      colour, titled from the table except for `chartBg`. */
  function Entry(p: Palette, r: Role): (e: ThemeEntry)
    ensures e.variable == Variable(r) && e.color == p.Get(r)
    ensures e.title.None? <==> r == ChartBg
    ensures r != ChartBg ==> e.title == Some(ThemeColors[RowOf(r)].title)
  {
    TitleOfRole(r);
    var v := Variable(r);
    ThemeEntry(GetColorTitle(v), v, p.Get(r))
  }

  /** Every role's title lookup, as `TitleOfRole` states it for one. */
  lemma TitlesOfRoles()
    ensures forall r :: GetColorTitle(Variable(r)).None? <==> r == ChartBg
  {
    forall r {
      TitleOfRole(r);
    }
  }

  /** Every pair of roles, as `VariableInjective` states it for one. */
  lemma VariablesApart()
    ensures forall a, b :: a != b ==> Variable(a) != Variable(b)
  {
    forall a, b {
      VariableInjective(a, b);
    }
  }

  /** The inner loop over `Object.entries(theme)`: one entry per key, in key
      order. */
  function SerializeScheme(p: Palette): (es: seq<ThemeEntry>)
    ensures |es| == |RoleOrder|
  {
    seq(|RoleOrder|, i requires 0 <= i < |RoleOrder| => Entry(p, RoleOrder[i]))
  }

  /** Each role's entry sits at the role's position and carries the role's
      colour under the role's variable, titled with its row's title unless
      the role is `chartBg`. */
  lemma SchemeEntries(p: Palette)
    ensures forall r :: Index(r) < |SerializeScheme(p)|
                        && SerializeScheme(p)[Index(r)] == Entry(p, r)
                        && SerializeScheme(p)[Index(r)].color == p.Get(r)
                        && SerializeScheme(p)[Index(r)].variable == Variable(r)
                        && (r != ChartBg ==> SerializeScheme(p)[Index(r)].title == Some(ThemeColors[RowOf(r)].title))
  {
    forall r
      ensures Index(r) < |SerializeScheme(p)|
      ensures SerializeScheme(p)[Index(r)] == Entry(p, r)
    {
      RoleOrderComplete(r);
    }
  }

  /** The title is missing for `chartBg` and for no other key. */
  lemma SchemeTitles(p: Palette)
    ensures forall i :: 0 <= i < |SerializeScheme(p)| ==>
              (SerializeScheme(p)[i].title.None? <==> RoleOrder[i] == ChartBg)
  {
    TitlesOfRoles();
  }

  /** No variable appears twice in a scheme's list. */
  lemma SchemeVariablesDistinct(p: Palette)
    ensures forall i, j :: 0 <= i < j < |SerializeScheme(p)| ==>
              SerializeScheme(p)[i].variable != SerializeScheme(p)[j].variable
  {
    RoleOrderDistinct();
    VariablesApart();
  }

  /** The outer loop over `Object.entries(themes)`: each scheme's list under
      the scheme's name, one entry per role in each. */
  function Publish(t: ThemePair): (m: map<string, seq<ThemeEntry>>)
    ensures m.Keys == set s | s in SystemThemes
    ensures forall s :: s in m ==> |m[s]| == |RoleOrder|
  {
    map["light" := SerializeScheme(t.light), "dark" := SerializeScheme(t.dark)]
  }

  /** Each scheme's list carries, at each role's position, that scheme's
      colour for the role. */
  lemma PublishedColors(t: ThemePair)
    ensures forall role ::
              && Publish(t)["light"][Index(role)].color == t.light.Get(role)
              && Publish(t)["dark"][Index(role)].color == t.dark.Get(role)
  {
    RoleOrderComplete(Background);
    SchemeEntries(t.light);
    SchemeEntries(t.dark);
  }

  /** In both schemes only `chartBg` goes untitled. */
  lemma PublishedTitles(t: ThemePair)
    ensures forall s, i :: s in Publish(t) && 0 <= i < |Publish(t)[s]| ==>
              (Publish(t)[s][i].title.None? <==> RoleOrder[i] == ChartBg)
  {
    SchemeTitles(t.light);
    SchemeTitles(t.dark);
  }

  /** `createRandomTheme(primaryColor)`: generate both palettes, then publish
      them. It fails exactly when the generation does, which a valid random
      stream and a colour library whose harmonies have the members the
      generator reads (as colord's do) rule out. */
  function CreateRandomTheme(lib: ColorLib, primaryColor: Option<Hsl>, src: Source, pos: nat)
    : (r: Result<map<string, seq<ThemeEntry>>, Error>)
    ensures r.Success? <==> CreateThemeConfig(lib, primaryColor, src, pos).Success?
    ensures Valid(src) && HarmoniesComplete(lib) ==> r.Success?
    ensures r.Failure? ==> r.error == CreateThemeConfig(lib, primaryColor, src, pos).error
    ensures r.Success? ==> r.value == Publish(CreateThemeConfig(lib, primaryColor, src, pos).value.theme)
  {
    var g :- CreateThemeConfig(lib, primaryColor, src, pos);
    Success(Publish(g.theme))
  }

  // ---------------------------------------------------------------------------
  // The corrected table: the last row spelt the way `toKebabCase` spells its key

  /** `themeColors` with the `chartBg` row's variable written `--chart-bg`. */
  const ThemeColorsCorrected: seq<ThemeColor> :=
    ThemeColors[33 := ThemeColor("Chart Background", "--chart-bg")]

  /** Every role's variable is the variable of its row of the corrected
      table, and the rows keep their titles. */
  lemma CorrectedRow(r: Role)
    ensures |ThemeColorsCorrected| == |ThemeColors|
    ensures ThemeColorsCorrected[RowOf(r)].title == ThemeColors[RowOf(r)].title
    ensures ThemeColorsCorrected[RowOf(r)].variable == Variable(r)
  {
    TableShape();
    if r == ChartBg {
      VariableSpelled(r);
      SpelledChartBg();
    } else {
      RowVariable(r);
    }
  }

  /** The corrected table still has no variable twice. */
  lemma CorrectedDistinct()
    ensures DistinctVariables(ThemeColorsCorrected)
  {
    TableShape();
    TableDistinct();
    ChartBgUnlisted();
    forall i, j | 0 <= i < j < |ThemeColorsCorrected|
      ensures ThemeColorsCorrected[i].variable != ThemeColorsCorrected[j].variable
    {
      if j == 33 {
        assert ThemeColorsCorrected[j].variable == "--chart-bg";
      }
    }
  }

  /** Against the corrected table every role's lookup succeeds, with the
      title of the role's row. */
  lemma CorrectedTitleResolves(r: Role)
    ensures FindTitle(ThemeColorsCorrected, Variable(r)) == Some(ThemeColors[RowOf(r)].title)
  {
    CorrectedRow(r);
    CorrectedDistinct();
    FindTitleAt(ThemeColorsCorrected, RowOf(r));
  }

  /** An entry whose title is always defined, as the non-null assertion on
      `getColorTitle` intends. */
  datatype TitledEntry = TitledEntry(title: string, variable: string, color: Hsl)

  /** The entry pushed for one key when titles come from the corrected table. */
  function CorrectedEntry(p: Palette, r: Role): (e: TitledEntry)
    ensures e.title == ThemeColors[RowOf(r)].title
    ensures e.variable == Variable(r) && e.color == p.Get(r)
  {
    CorrectedTitleResolves(r);
    var v := Variable(r);
    TitledEntry(FindTitle(ThemeColorsCorrected, v).value, v, p.Get(r))
  }

  /** The inner loop with the corrected lookup. */
  function SerializeSchemeCorrected(p: Palette): (es: seq<TitledEntry>)
    ensures |es| == |RoleOrder|
  {
    seq(|RoleOrder|, i requires 0 <= i < |RoleOrder| => CorrectedEntry(p, RoleOrder[i]))
  }

  /** Each role's corrected entry sits at the role's position and carries the
      title of the role's row, the role's variable and the role's colour;
      the only change from the list as written is the title of `chartBg`. */
  lemma CorrectedSchemeEntries(p: Palette)
    ensures forall r :: && Index(r) < |SerializeSchemeCorrected(p)|
                        && SerializeSchemeCorrected(p)[Index(r)]
                           == TitledEntry(ThemeColors[RowOf(r)].title, Variable(r), p.Get(r))
    ensures forall i :: 0 <= i < |SerializeSchemeCorrected(p)| && RoleOrder[i] != ChartBg ==>
              Some(SerializeSchemeCorrected(p)[i].title) == SerializeScheme(p)[i].title
  {
    forall r
      ensures Index(r) < |SerializeSchemeCorrected(p)|
      ensures SerializeSchemeCorrected(p)[Index(r)] == CorrectedEntry(p, r)
    {
      RoleOrderComplete(r);
    }
    forall i | 0 <= i < |SerializeSchemeCorrected(p)| && RoleOrder[i] != ChartBg
      ensures Some(SerializeSchemeCorrected(p)[i].title) == SerializeScheme(p)[i].title
    {
      TitleOfRole(RoleOrder[i]);
    }
  }

  /** The outer loop with the corrected lookup. */
  function PublishCorrected(t: ThemePair): (m: map<string, seq<TitledEntry>>)
    ensures m.Keys == set s | s in SystemThemes
    ensures forall s :: s in m ==> |m[s]| == |RoleOrder|
  {
    map["light" := SerializeSchemeCorrected(t.light), "dark" := SerializeSchemeCorrected(t.dark)]
  }

  /** `createRandomTheme` with the corrected table: it succeeds and fails as
      the version as written does, and on success every entry of both
      schemes has its row's title. */
  function CreateRandomThemeCorrected(lib: ColorLib, primaryColor: Option<Hsl>, src: Source, pos: nat)
    : (r: Result<map<string, seq<TitledEntry>>, Error>)
    ensures r.Success? <==> CreateRandomTheme(lib, primaryColor, src, pos).Success?
    ensures Valid(src) && HarmoniesComplete(lib) ==> r.Success?
    ensures r.Success? ==> r.value == PublishCorrected(CreateThemeConfig(lib, primaryColor, src, pos).value.theme)
  {
    var g :- CreateThemeConfig(lib, primaryColor, src, pos);
    Success(PublishCorrected(g.theme))
  }

}

=== FILE: theme.dfy ===
/** The static role table of theme.ts: one `(title, variable)` pair per CSS
    variable the editor knows, and the title lookup over it. */
module Theme {
  import opened Wrappers

  /** One row of the table: a display title and the CSS custom property it labels. */
  datatype ThemeColor = ThemeColor(title: string, variable: string)

  /** `themeColors`, in source order. */
  const ThemeColors: seq<ThemeColor> := [
    ThemeColor("Primary", "--primary"),
    ThemeColor("Primary Foreground", "--primary-foreground"),
    ThemeColor("Secondary", "--secondary"),
    ThemeColor("Secondary Foreground", "--secondary-foreground"),
    ThemeColor("Background", "--background"),
    ThemeColor("Foreground", "--foreground"),
    ThemeColor("Card", "--card"),
    ThemeColor("Card Foreground", "--card-foreground"),
    ThemeColor("Popover", "--popover"),
    ThemeColor("Popover Foreground", "--popover-foreground"),
    ThemeColor("Muted", "--muted"),
    ThemeColor("Muted Foreground", "--muted-foreground"),
    ThemeColor("Accent", "--accent"),
    ThemeColor("Accent Foreground", "--accent-foreground"),
    ThemeColor("Destructive", "--destructive"),
    ThemeColor("Destructive Foreground", "--destructive-foreground"),
    ThemeColor("Border", "--border"),
    ThemeColor("Input", "--input"),
    ThemeColor("Ring", "--ring"),
    ThemeColor("Unlocked", "--unlocked"),
    ThemeColor("Long", "--long"),
    ThemeColor("Long Foreground", "--long-foreground"),
    ThemeColor("Long Inside", "--long-inside"),
    ThemeColor("Short", "--short"),
    ThemeColor("Short Foreground", "--short-foreground"),
    ThemeColor("Short Inside", "--short-inside"),
    ThemeColor("TP", "--tp"),
    ThemeColor("TP Foreground", "--tp-foreground"),
    ThemeColor("TP Inside", "--tp-inside"),
    ThemeColor("TP Light", "--tp-light"),
    ThemeColor("SL", "--sl"),
    ThemeColor("SL Foreground", "--sl-foreground"),
    ThemeColor("SL Inside", "--sl-inside"),
    ThemeColor("Chart Background", "--chartBg")
  ]

  /** The colour schemes, `SystemThemes`. */
  const SystemThemes: seq<string> := ["light", "dark"]

  /** `table.find(item => item.variable === v)?.title`: the title of the first
      row whose variable is `v`, and `None` exactly when no row matches. */
  function FindTitle(table: seq<ThemeColor>, v: string): (r: Option<string>)
    ensures r.None? <==> forall i :: 0 <= i < |table| ==> table[i].variable != v
    ensures r.Some? ==> exists i :: 0 <= i < |table| && table[i].variable == v && table[i].title == r.value
                                  && forall j :: 0 <= j < i ==> table[j].variable != v
  {
    if |table| == 0 then None
    else if table[0].variable == v then Some(table[0].title)
    else
      var r := FindTitle(table[1..], v);
      assert forall i :: 1 <= i < |table| ==> table[i] == table[1..][i - 1];
      r
  }

  /** The variables of a table are pairwise distinct. */
  ghost predicate DistinctVariables(table: seq<ThemeColor>) {
    forall i, j :: 0 <= i < j < |table| ==> table[i].variable != table[j].variable
  }

  /** Over a table with distinct variables the lookup is unambiguous: a row
      whose variable is `v` gives its own title. */
  lemma FindTitleAt(table: seq<ThemeColor>, i: int)
    requires DistinctVariables(table)
    requires 0 <= i < |table|
    ensures FindTitle(table, table[i].variable) == Some(table[i].title)
  {
    var r := FindTitle(table, table[i].variable);
    var k :| 0 <= k < |table| && table[k].variable == table[i].variable && table[k].title == r.value;
    assert k == i;
  }

  /** `getColorTitle(v)`: there is no fallback title; a variable outside the
      table yields `None`. */
  function GetColorTitle(v: string): (r: Option<string>)
    ensures r.None? <==> forall i :: 0 <= i < |ThemeColors| ==> ThemeColors[i].variable != v
    ensures r.Some? ==> exists i :: 0 <= i < |ThemeColors| && ThemeColors[i].variable == v
                                  && ThemeColors[i].title == r.value
  {
    FindTitle(ThemeColors, v)
  }

  /** The table has 34 rows. */
  lemma TableShape()
    ensures |ThemeColors| == 34
  {
  }

  lemma PrefixedFirst()
    ensures forall i :: 0 <= i < 12 ==> "--" < ThemeColors[i].variable
  {
  }

  lemma PrefixedMiddle()
    ensures forall i :: 12 <= i < 23 ==> "--" < ThemeColors[i].variable
  {
  }

  lemma PrefixedLast()
    ensures forall i :: 23 <= i < 34 ==> "--" < ThemeColors[i].variable
  {
  }

  /** Every variable of the table is a `--` custom property (`<` on
      sequences is "is a proper prefix of"). */
  lemma TablePrefixed()
    ensures forall i :: 0 <= i < |ThemeColors| ==> "--" < ThemeColors[i].variable
  {
    PrefixedFirst();
    PrefixedMiddle();
    PrefixedLast();
  }

  lemma DistinctFrom0()
    ensures forall i, j :: 0 <= i < 4 && i < j < |ThemeColors| ==> ThemeColors[i].variable != ThemeColors[j].variable
  {
  }

  lemma DistinctFrom4()
    ensures forall i, j :: 4 <= i < 9 && i < j < |ThemeColors| ==> ThemeColors[i].variable != ThemeColors[j].variable
  {
  }

  lemma DistinctFrom9()
    ensures forall i, j :: 9 <= i < 15 && i < j < |ThemeColors| ==> ThemeColors[i].variable != ThemeColors[j].variable
  {
  }

  lemma DistinctFrom15()
    ensures forall i, j :: 15 <= i < 22 && i < j < |ThemeColors| ==> ThemeColors[i].variable != ThemeColors[j].variable
  {
  }

  lemma DistinctFrom22()
    ensures forall i, j :: 22 <= i < j < |ThemeColors| ==> ThemeColors[i].variable != ThemeColors[j].variable
  {
  }

  /** No variable appears twice in the table. */
  lemma TableDistinct()
    ensures forall i, j :: 0 <= i < j < |ThemeColors| ==> ThemeColors[i].variable != ThemeColors[j].variable
  {
    DistinctFrom0();
    DistinctFrom4();
    DistinctFrom9();
    DistinctFrom15();
    DistinctFrom22();
  }

  lemma PrimaryForegroundTitle()
    ensures GetColorTitle("--primary-foreground") == Some("Primary Foreground")
  {
    TableDistinct();
    assert ThemeColors[1].variable == "--primary-foreground";
  }
}

=== FILE: theme_config.dfy ===
/** `createThemeConfig` and its helpers: from one primary colour, a light and a
    dark palette. Every random choice is read from the injected stream in the
    order the source makes it, and the choices the source makes once (the card
    and popover coin flips, the harmony mode, `shouldMatch`, the deviations)
    feed both schemes. */
module ThemeConfig {
  import opened Wrappers
  import opened Colord
  import opened Faker
  import opened Contrast
  import opened Palette

  /** `x` is a whole number in [lo, hi], as `faker.number.int` produces. */
  predicate IntIn(x: real, lo: int, hi: int) {
    x == x.Floor as real && lo as real <= x <= hi as real
  }

  // ---------------------------------------------------------------------------
  // Base colours

  /** The colour ranges `createPrimaryColor` draws from. */
  predicate PrimaryInRange(c: Hsl) {
    IntIn(c.h, 0, 360) && IntIn(c.s, 0, 100) && IntIn(c.l, 10, 90)
  }

  /** `createPrimaryColor`: hue in [0, 360] (360 included), saturation in
      [0, 100], lightness in [10, 90]; three draws. */
  function CreatePrimaryColor(src: Source, pos: nat): (d: Draw<Hsl>)
    ensures d.next == pos + 3
    ensures Valid(src) ==> PrimaryInRange(d.value)
  {
    var h := Int(src, pos, 0, 360);
    var s := Int(src, h.next, 0, 100);
    var l := Int(src, s.next, 10, 90);
    Draw(Hsl(h.value as real, s.value as real, l.value as real), l.next)
  }

  /** A colour at a fixed hue whose saturation and lightness are drawn, in that
      order, from [sMin, sMax] and [lMin, lMax]. The four background and
      foreground builders are instances. */
  function HueShade(hue: real, src: Source, pos: nat, sMin: int, sMax: int, lMin: int, lMax: int): (d: Draw<Hsl>)
    ensures d.next == pos + 2
    ensures d.value.h == hue
    ensures Valid(src) && sMin <= sMax && lMin <= lMax ==>
              IntIn(d.value.s, sMin, sMax) && IntIn(d.value.l, lMin, lMax)
  {
    var s := Int(src, pos, sMin, sMax);
    var l := Int(src, s.next, lMin, lMax);
    Draw(Hsl(hue, s.value as real, l.value as real), l.next)
  }

  /** `createBackgroundLight`: s in [30, 70], l in [98, 100]. */
  function CreateBackgroundLight(hue: real, src: Source, pos: nat): (d: Draw<Hsl>)
    ensures d.next == pos + 2 && d.value.h == hue
    ensures Valid(src) ==> IntIn(d.value.s, 30, 70) && IntIn(d.value.l, 98, 100)
  {
    HueShade(hue, src, pos, 30, 70, 98, 100)
  }

  /** `createBackgroundDark`: s in [30, 60], l in [0, 4]. */
  function CreateBackgroundDark(hue: real, src: Source, pos: nat): (d: Draw<Hsl>)
    ensures d.next == pos + 2 && d.value.h == hue
    ensures Valid(src) ==> IntIn(d.value.s, 30, 60) && IntIn(d.value.l, 0, 4)
  {
    HueShade(hue, src, pos, 30, 60, 0, 4)
  }

  /** `createForegroundLight`: s in [50, 80], l in [0, 5]. */
  function CreateForegroundLight(hue: real, src: Source, pos: nat): (d: Draw<Hsl>)
    ensures d.next == pos + 2 && d.value.h == hue
    ensures Valid(src) ==> IntIn(d.value.s, 50, 80) && IntIn(d.value.l, 0, 5)
  {
    HueShade(hue, src, pos, 50, 80, 0, 5)
  }

  /** `createForegroundDark`: s in [10, 40], l in [97, 100]. */
  function CreateForegroundDark(hue: real, src: Source, pos: nat): (d: Draw<Hsl>)
    ensures d.next == pos + 2 && d.value.h == hue
    ensures Valid(src) ==> IntIn(d.value.s, 10, 40) && IntIn(d.value.l, 97, 100)
  {
    HueShade(hue, src, pos, 10, 40, 97, 100)
  }

  /** The colour ranges `createDestructive` draws from: a red hue. */
  predicate DestructiveInRange(c: Hsl) {
    IntIn(c.h, 0, 22) && IntIn(c.s, 80, 100) && IntIn(c.l, 20, 45)
  }

  /** `createDestructive`: a colord instance built from a drawn red;
      the claim is about the constructor input, not about the instance's
      own HSL reading. */
  function CreateDestructive(lib: ColorLib, src: Source, pos: nat): (d: Draw<Rgba>)
    ensures d.next == pos + 3
    ensures Valid(src) ==> exists c :: DestructiveInRange(c) && d.value == lib.parse(c)
  {
    var h := Int(src, pos, 0, 22);
    var s := Int(src, h.next, 80, 100);
    var l := Int(src, s.next, 20, 45);
    var c := Hsl(h.value as real, s.value as real, l.value as real);
    Draw(lib.parse(c), l.next)
  }

  // ---------------------------------------------------------------------------
  // Harmonies

  /** The harmony modes, `modes`, in source order. */
  datatype HarmonyMode = Complementary | Triadic | Analogous | Slick

  const Modes: seq<HarmonyMode> := [Complementary, Triadic, Analogous, Slick]

  /** The exceptions the generator can throw. */
  datatype Error =
    | HarmonyFailed   // "Failed to create harmony"
    | InvalidMode     // "Invalid mode"

  /** The `{secondary, accent}` pair a harmony produces. */
  datatype Pair = Pair(secondary: Rgba, accent: Rgba)

  /** The slick secondary: the primary's hue with s in [0, 20] and l in [8, 20]
      (dark) or [80, 92] (light), stated on the constructor input. */
  ghost predicate SlickBase(lib: ColorLib, primary: Rgba, isDark: bool, c: Rgba) {
    exists s: real, l: real ::
      && IntIn(s, 0, 20)
      && (if isDark then IntIn(l, 8, 20) else IntIn(l, 80, 92))
      && c == lib.parse(Hsl(lib.hue(primary), s, l))
  }

  /** An amount `faker.number.float({min: 0.05, max: 0.1})` can return. The
      bound is closed: in double arithmetic the largest draw rounds up to 0.1. */
  predicate NudgeAmount(x: real) {
    0.05 <= x <= 0.1
  }

  /** The unmatched slick accent in the dark scheme: saturated, then lightened. */
  ghost predicate DarkNudge(lib: ColorLib, secondary: Rgba, accent: Rgba) {
    exists a, b :: NudgeAmount(a) && NudgeAmount(b) && accent == lib.lighten(lib.saturate(secondary, a), b)
  }

  /** The unmatched slick accent in the light scheme: darkened, then saturated. */
  ghost predicate LightNudge(lib: ColorLib, secondary: Rgba, accent: Rgba) {
    exists a, b :: NudgeAmount(a) && NudgeAmount(b) && accent == lib.saturate(lib.darken(secondary, a), b)
  }

  /** `createColorHarmony`. `mode` is `None` when `arrayElement` read past the
      end of `modes` (JavaScript `undefined`), which ends in "Invalid mode". */
  function CreateColorHarmony(lib: ColorLib, primary: Rgba, mode: Option<HarmonyMode>, shouldMatch: bool,
                              isDark: bool, src: Source, pos: nat): (r: Result<Draw<Pair>, Error>)
    ensures r.Failure? ==> (r.error == InvalidMode <==> mode.None?)
    ensures mode.None? ==> r == Failure(InvalidMode)
    ensures mode == Some(Complementary) ==>
              var hs := lib.harmonies(primary, "complementary");
              && (r.Success? <==> |hs| >= 2)
              && (r.Success? ==> r.value == Draw(Pair(hs[1], hs[1]), pos))
    ensures mode == Some(Triadic) ==>
              var hs := lib.harmonies(primary, "triadic");
              && (r.Success? <==> |hs| >= 3)
              && (r.Success? ==> r.value == Draw(Pair(hs[1], hs[2]), pos))
    ensures mode == Some(Analogous) ==>
              var hs := lib.harmonies(primary, "analogous");
              && (r.Success? <==> |hs| >= 3)
              && (r.Success? ==> r.value == Draw(Pair(hs[0], hs[2]), pos))
    ensures mode == Some(Slick) ==>
              && r.Success?
              && (Valid(src) ==> SlickBase(lib, primary, isDark, r.value.value.secondary))
              && (shouldMatch ==> r.value.value.accent == r.value.value.secondary && r.value.next == pos + 2)
              && (!shouldMatch ==> r.value.next == pos + 4)
              && (!shouldMatch && Valid(src) && isDark ==>
                    DarkNudge(lib, r.value.value.secondary, r.value.value.accent))
              && (!shouldMatch && Valid(src) && !isDark ==>
                    LightNudge(lib, r.value.value.secondary, r.value.value.accent))
  {
    match mode
    case None => Failure(InvalidMode)
    case Some(Triadic) =>
      var hs := lib.harmonies(primary, "triadic");
      if |hs| < 3 then Failure(HarmonyFailed) else Success(Draw(Pair(hs[1], hs[2]), pos))
    case Some(Complementary) =>
      var hs := lib.harmonies(primary, "complementary");
      if |hs| < 2 then Failure(HarmonyFailed) else Success(Draw(Pair(hs[1], hs[1]), pos))
    case Some(Analogous) =>
      var hs := lib.harmonies(primary, "analogous");
      if |hs| < 3 then Failure(HarmonyFailed) else Success(Draw(Pair(hs[0], hs[2]), pos))
    case Some(Slick) =>
      var base := if isDark then HueShade(lib.hue(primary), src, pos, 0, 20, 8, 20)
                  else HueShade(lib.hue(primary), src, pos, 0, 20, 80, 92);
      var clr := lib.parse(base.value);
      if shouldMatch then
        Success(Draw(Pair(clr, clr), base.next))
      else
        var first := Float(src, base.next, 0.05, 0.1);
        var second := Float(src, first.next, 0.05, 0.1);
        assert Valid(src) ==> NudgeAmount(first.value) && NudgeAmount(second.value) by {
          if Valid(src) {
            assert InUnit(src(base.next)) && InUnit(src(first.next));
          }
        }
        var accent := if isDark then lib.lighten(lib.saturate(clr, first.value), second.value)
                      else lib.saturate(lib.darken(clr, first.value), second.value);
        Success(Draw(Pair(clr, accent), second.next))
  }

  datatype Harmonies = Harmonies(mode: HarmonyMode, shouldMatch: bool, light: Pair, dark: Pair, next: nat)

  /** Every harmony the generator asks for has the members it reads: two for
      "complementary" (colord gives the colour and its opposite), three for
      "triadic" and "analogous". */
  ghost predicate HarmoniesComplete(lib: ColorLib) {
    forall c ::
      && |lib.harmonies(c, "complementary")| >= 2
      && |lib.harmonies(c, "triadic")| >= 3
      && |lib.harmonies(c, "analogous")| >= 3
  }

  /** Lines 268-305 of `createThemeConfig`: one harmony mode and one
      `shouldMatch` drawn for both schemes, then the light and the dark
      harmony of the same primary. Outside slick mode the two schemes get the
      same pair; complementary (and slick with `shouldMatch`) makes the accent
      the secondary in both. */
  function CreateHarmonies(lib: ColorLib, primary: Rgba, src: Source, pos: nat): (r: Result<Harmonies, Error>)
    ensures Valid(src) && r.Failure? ==> r.error == HarmonyFailed
    ensures Valid(src) && HarmoniesComplete(lib) ==> r.Success?
    ensures r.Success? && r.value.mode != Slick ==> r.value.light == r.value.dark
    ensures r.Success? && r.value.mode == Complementary ==>
              var hs := lib.harmonies(primary, "complementary");
              |hs| >= 2 && r.value.light == Pair(hs[1], hs[1])
    ensures r.Success? && r.value.mode == Triadic ==>
              var hs := lib.harmonies(primary, "triadic");
              |hs| >= 3 && r.value.light == Pair(hs[1], hs[2])
    ensures r.Success? && r.value.mode == Analogous ==>
              var hs := lib.harmonies(primary, "analogous");
              |hs| >= 3 && r.value.light == Pair(hs[0], hs[2])
    ensures r.Success? && r.value.mode == Complementary ==>
              r.value.light.accent == r.value.light.secondary && r.value.dark.accent == r.value.dark.secondary
    ensures r.Success? && r.value.mode == Slick && r.value.shouldMatch ==>
              r.value.light.accent == r.value.light.secondary && r.value.dark.accent == r.value.dark.secondary
    ensures r.Success? && r.value.mode == Slick && Valid(src) ==>
              SlickBase(lib, primary, false, r.value.light.secondary)
              && SlickBase(lib, primary, true, r.value.dark.secondary)
  {
    var harmonyMode := ArrayElement(src, pos, Modes);
    var shouldMatch := Boolean(src, harmonyMode.next);
    var lightHarmonies :- CreateColorHarmony(lib, primary, harmonyMode.value, shouldMatch.value,
                                             false, src, shouldMatch.next);
    var darkHarmonies :- CreateColorHarmony(lib, primary, harmonyMode.value, shouldMatch.value,
                                            true, src, lightHarmonies.next);
    Success(Harmonies(harmonyMode.value.value, shouldMatch.value, lightHarmonies.value,
                      darkHarmonies.value, darkHarmonies.next))
  }

  // ---------------------------------------------------------------------------
  // Surfaces: background, foreground, card and popover (both schemes)

  /** The six surface roles of one scheme. */
  datatype Surface = Surface(background: Hsl, foreground: Hsl, card: Hsl, cardForeground: Hsl,
                             popover: Hsl, popoverForeground: Hsl)

  datatype Surfaces = Surfaces(light: Surface, dark: Surface, cardBoolean: bool, popoverBoolean: bool, next: nat)

  /** Background and foreground take the given hue in both schemes. */
  predicate SurfaceHue(light: Surface, dark: Surface, hue: real) {
    && light.background.h == hue && dark.background.h == hue
    && light.foreground.h == hue && dark.foreground.h == hue
  }

  /** The background and foreground ranges of each scheme. */
  predicate SurfaceRanges(light: Surface, dark: Surface) {
    && IntIn(light.background.s, 30, 70) && IntIn(light.background.l, 98, 100)
    && IntIn(dark.background.s, 30, 60) && IntIn(dark.background.l, 0, 4)
    && IntIn(light.foreground.s, 50, 80) && IntIn(light.foreground.l, 0, 5)
    && IntIn(dark.foreground.s, 10, 40) && IntIn(dark.foreground.l, 97, 100)
  }

  /** One card coin flip and one popover coin flip decide both schemes: with
      the card flip the card roles are background/foreground shifted by 0.01
      (darker in light, lighter in dark), otherwise the plain ones; with the
      popover flip the popover roles copy the card roles, otherwise
      background/foreground. */
  predicate CardPopover(lib: ColorLib, light: Surface, dark: Surface, cardBoolean: bool, popoverBoolean: bool) {
    && light.card == (if cardBoolean then Darken(lib, light.background, 0.01) else light.background)
    && light.cardForeground == (if cardBoolean then Darken(lib, light.foreground, 0.01) else light.foreground)
    && dark.card == (if cardBoolean then Lighten(lib, dark.background, 0.01) else dark.background)
    && dark.cardForeground == (if cardBoolean then Lighten(lib, dark.foreground, 0.01) else dark.foreground)
    && light.popover == (if popoverBoolean then light.card else light.background)
    && light.popoverForeground == (if popoverBoolean then light.cardForeground else light.foreground)
    && dark.popover == (if popoverBoolean then dark.card else dark.background)
    && dark.popoverForeground == (if popoverBoolean then dark.cardForeground else dark.foreground)
  }

  /** Lines 232-266 of `createThemeConfig`: both backgrounds and foregrounds
      (dark before light), then the card and the popover flip; ten draws. */
  function CreateSurfaces(lib: ColorLib, hue: real, src: Source, pos: nat): (r: Surfaces)
    ensures r.next == pos + 10
    ensures SurfaceHue(r.light, r.dark, hue)
    ensures Valid(src) ==> SurfaceRanges(r.light, r.dark)
    ensures CardPopover(lib, r.light, r.dark, r.cardBoolean, r.popoverBoolean)
  {
    var backgroundDark := CreateBackgroundDark(hue, src, pos);
    var backgroundLight := CreateBackgroundLight(hue, src, backgroundDark.next);
    var foregroundDark := CreateForegroundDark(hue, src, backgroundLight.next);
    var foregroundLight := CreateForegroundLight(hue, src, foregroundDark.next);

    var cardBoolean := Boolean(src, foregroundLight.next);
    var cardLight := if cardBoolean.value then Darken(lib, backgroundLight.value, 0.01) else backgroundLight.value;
    var cardDark := if cardBoolean.value then Lighten(lib, backgroundDark.value, 0.01) else backgroundDark.value;
    var cardLightForeground :=
      if cardBoolean.value then Darken(lib, foregroundLight.value, 0.01) else foregroundLight.value;
    var cardDarkForeground :=
      if cardBoolean.value then Lighten(lib, foregroundDark.value, 0.01) else foregroundDark.value;

    var popoverBoolean := Boolean(src, cardBoolean.next);
    var popoverLight := if popoverBoolean.value then cardLight else backgroundLight.value;
    var popoverDark := if popoverBoolean.value then cardDark else backgroundDark.value;
    var popoverLightForeground := if popoverBoolean.value then cardLightForeground else foregroundLight.value;
    var popoverDarkForeground := if popoverBoolean.value then cardDarkForeground else foregroundDark.value;

    Surfaces(
      Surface(backgroundLight.value, foregroundLight.value, cardLight, cardLightForeground,
              popoverLight, popoverLightForeground),
      Surface(backgroundDark.value, foregroundDark.value, cardDark, cardDarkForeground,
              popoverDark, popoverDarkForeground),
      cardBoolean.value, popoverBoolean.value, popoverBoolean.next)
  }

  // ---------------------------------------------------------------------------
  // Destructive

  datatype Destructives = Destructives(base: Rgba, light: Hsl, dark: Hsl, next: nat)

  /** Lines 307-314: the light destructive is the drawn red read back through
      colord; the dark one keeps that hue and saturation and draws its own
      lightness in [45, 60]; four draws. */
  function CreateDestructives(lib: ColorLib, src: Source, pos: nat): (r: Destructives)
    ensures r.next == pos + 4
    ensures r.light == lib.toHsl(r.base)
    ensures r.dark.h == r.light.h && r.dark.s == r.light.s
    ensures Valid(src) ==> IntIn(r.dark.l, 45, 60)
    ensures Valid(src) ==> exists c :: DestructiveInRange(c) && r.base == lib.parse(c)
  {
    var destructiveBase := CreateDestructive(lib, src, pos);
    var destructiveLight := lib.toHsl(destructiveBase.value);
    var l := Int(src, destructiveBase.next, 45, 60);
    Destructives(destructiveBase.value, destructiveLight,
                 Hsl(destructiveLight.h, destructiveLight.s, l.value as real), l.next)
  }

  // ---------------------------------------------------------------------------
  // Muted, muted-foreground and border (both schemes)

  /** The three deviation-derived roles of one scheme. */
  datatype Shades = Shades(muted: Hsl, mutedForeground: Hsl, border: Hsl)

  datatype ShadePair = ShadePair(light: Shades, dark: Shades, next: nat)

  /** The deviations drawn once: each light/dark pair shares its saturation,
      light and dark lightness of muted and of muted-foreground add up to 100,
      muted takes its scheme's secondary hue, muted-foreground its muted hue,
      and the border its scheme's background hue. */
  predicate SharedDeviations(light: Shades, dark: Shades, secondaryLight: Hsl, secondaryDark: Hsl,
                             backgroundLight: Hsl, backgroundDark: Hsl) {
    && light.muted.h == secondaryLight.h && dark.muted.h == secondaryDark.h
    && dark.muted.s == light.muted.s && light.muted.l + dark.muted.l == 100.0
    && light.mutedForeground.h == light.muted.h && dark.mutedForeground.h == dark.muted.h
    && dark.mutedForeground.s == light.mutedForeground.s
    && light.mutedForeground.l + dark.mutedForeground.l == 100.0
    && light.border.h == backgroundLight.h && dark.border.h == backgroundDark.h
    && dark.border.s == light.border.s
  }

  /** The ranges: muted l = 85 + d (light) and 15 - d (dark) with d in [0, 10],
      s in [5, 40]; muted-foreground l = 25 + d and 75 - d with d in [0, 15],
      s in [0, 15]; border s in [2, 15], dark border l in [10, 15]. */
  predicate ShadeRanges(light: Shades, dark: Shades) {
    && IntIn(light.muted.s, 5, 40) && IntIn(light.muted.l, 85, 95) && IntIn(dark.muted.l, 5, 15)
    && IntIn(light.mutedForeground.s, 0, 15)
    && IntIn(light.mutedForeground.l, 25, 40) && IntIn(dark.mutedForeground.l, 60, 75)
    && IntIn(light.border.s, 2, 15) && IntIn(dark.border.l, 10, 15)
  }

  /** Lines 324-373 of `createThemeConfig`; seven draws. */
  function CreateShades(secondaryLight: Hsl, secondaryDark: Hsl, backgroundLight: Hsl, backgroundDark: Hsl,
                        src: Source, pos: nat): (r: ShadePair)
    ensures r.next == pos + 7
    ensures SharedDeviations(r.light, r.dark, secondaryLight, secondaryDark, backgroundLight, backgroundDark)
    ensures Valid(src) ==> ShadeRanges(r.light, r.dark)
    ensures Valid(src) ==> backgroundLight.l - 10.0 <= r.light.border.l <= backgroundLight.l - 5.0
    ensures Valid(src) && IntIn(backgroundLight.l, 98, 100) ==> IntIn(r.light.border.l, 88, 95)
  {
    var mutedS := Int(src, pos, 5, 40);
    var mutedL := Int(src, mutedS.next, 0, 10);
    var mutedLight := Hsl(secondaryLight.h, mutedS.value as real, (85 + mutedL.value) as real);
    var mutedDark := Hsl(secondaryDark.h, mutedS.value as real, (15 - mutedL.value) as real);

    var mutedForegroundS := Int(src, mutedL.next, 0, 15);
    var mutedForegroundL := Int(src, mutedForegroundS.next, 0, 15);
    var mutedForegroundLight :=
      Hsl(mutedLight.h, mutedForegroundS.value as real, (25 + mutedForegroundL.value) as real);
    var mutedForegroundDark :=
      Hsl(mutedDark.h, mutedForegroundS.value as real, (75 - mutedForegroundL.value) as real);

    var inputS := Int(src, mutedForegroundL.next, 2, 15);
    var inputL := Int(src, inputS.next, 5, 10);
    var borderLight := Hsl(backgroundLight.h, inputS.value as real, backgroundLight.l - inputL.value as real);
    var borderDarkL := Int(src, inputL.next, 10, 15);
    var borderDark := Hsl(backgroundDark.h, inputS.value as real, borderDarkL.value as real);

    ShadePair(Shades(mutedLight, mutedForegroundLight, borderLight),
              Shades(mutedDark, mutedForegroundDark, borderDark), borderDarkL.next)
  }

  // ---------------------------------------------------------------------------
  // One scheme's object literal

  /** Roles that are another role under a second name. */
  predicate Aliased(p: Palette) {
    && p.input == p.border
    && p.ring == p.primary
    && p.unlocked == p.background && p.chartBg == p.background
    && p.long == p.accent && p.longForeground == p.accentForeground
    && p.short == p.destructive && p.shortForeground == p.destructiveForeground
    && p.tp == p.primary && p.tpForeground == p.primaryForeground
    && p.sl == p.secondary && p.slForeground == p.secondaryForeground
  }

  /** The `*Inside` roles are their base darkened by 0.4; `tpLight` is the
      primary lightened by 0.1. */
  predicate FeatureShades(lib: ColorLib, p: Palette) {
    && p.longInside == Darken(lib, p.long, 0.4)
    && p.shortInside == Darken(lib, p.short, 0.4)
    && p.tpInside == Darken(lib, p.tp, 0.4)
    && p.slInside == Darken(lib, p.sl, 0.4)
    && p.tpLight == Lighten(lib, p.tp, 0.1)
  }

  function SurfaceOf(p: Palette): Surface {
    Surface(p.background, p.foreground, p.card, p.cardForeground, p.popover, p.popoverForeground)
  }

  function ShadesOf(p: Palette): Shades {
    Shades(p.muted, p.mutedForeground, p.border)
  }

  /** A colour with the foreground `createContrast` finds for it. */
  datatype Tone = Tone(color: Hsl, foreground: Hsl)

  /** The object literal of lines 376-411 (light) and 412-447 (dark), which have
      the same shape: the 34 roles from the computed colours, with the feature
      roles as aliases and shades of them. */
  function Scheme(lib: ColorLib, s: Surface, primary: Tone, secondary: Tone, accent: Tone,
                  destructive: Tone, sh: Shades): (p: Palette)
    ensures Aliased(p) && FeatureShades(lib, p)
    ensures SurfaceOf(p) == s && ShadesOf(p) == sh
    ensures p.primary == primary.color && p.primaryForeground == primary.foreground
    ensures p.secondary == secondary.color && p.secondaryForeground == secondary.foreground
    ensures p.accent == accent.color && p.accentForeground == accent.foreground
    ensures p.destructive == destructive.color && p.destructiveForeground == destructive.foreground
  {
    Palette(
      s.background, s.foreground, s.card, s.cardForeground,
      s.popover, s.popoverForeground, primary.color, primary.foreground,
      secondary.color, secondary.foreground, accent.color, accent.foreground,
      destructive.color, destructive.foreground, sh.muted, sh.mutedForeground,
      sh.border, sh.border, primary.color, s.background,
      accent.color, accent.foreground, Darken(lib, accent.color, 0.4),
      destructive.color, destructive.foreground, Darken(lib, destructive.color, 0.4),
      primary.color, primary.foreground, Darken(lib, primary.color, 0.4), Lighten(lib, primary.color, 0.1),
      secondary.color, secondary.foreground, Darken(lib, secondary.color, 0.4),
      s.background)
  }

  /** `colordToHsl(c)` with `colordToHsl(createContrast(c))`. */
  function ToneOf(lib: ColorLib, c: Rgba): Tone {
    Tone(lib.toHsl(c), lib.toHsl(CreateContrast(lib, c).color))
  }

  // ---------------------------------------------------------------------------
  // The generator

  /** The `{light, dark}` object `createThemeConfig` returns. */
  datatype ThemePair = ThemePair(light: Palette, dark: Palette)

  /** The values the generator draws or builds once and uses for both schemes. */
  datatype Trace = Trace(
    seed: Hsl,              // the colour handed to `new Colord` as primary
    cardBoolean: bool,
    popoverBoolean: bool,
    mode: HarmonyMode,
    shouldMatch: bool,
    lightPair: Pair,        // the light scheme's harmony
    darkPair: Pair,         // the dark scheme's harmony
    destructive: Rgba)      // `destructiveBase`

  datatype Generated = Generated(theme: ThemePair, trace: Trace, next: nat)

  /** `createThemeConfig(primaryColor?)`. Without a seed the primary is drawn
      first; then come the surfaces, the harmony mode, `shouldMatch`, the light
      and the dark harmony, the destructive red and the shade deviations, each
      reading the stream where the previous one stopped. The only exceptions
      are the harmony ones; with every draw in [0, 1) "Invalid mode" cannot
      happen, and with complete harmonies nothing is thrown. */
  function CreateThemeConfig(lib: ColorLib, primaryColor: Option<Hsl>, src: Source, pos: nat)
    : (r: Result<Generated, Error>)
    ensures Valid(src) && r.Failure? ==> r.error == HarmonyFailed
    ensures Valid(src) && HarmoniesComplete(lib) ==> r.Success?
    ensures r.Success? ==>
              && (primaryColor.Some? ==> r.value.trace.seed == primaryColor.value)
              && (primaryColor.None? && Valid(src) ==> PrimaryInRange(r.value.trace.seed))
  {
    var seed := match primaryColor
      case Some(c) => Draw(c, pos)
      case None => CreatePrimaryColor(src, pos);
    var primaryBase := lib.parse(seed.value);
    var primaryLight := ToneOf(lib, primaryBase);
    var primaryDark := ToneOf(lib, primaryBase);

    var surfaces := CreateSurfaces(lib, lib.hue(primaryBase), src, seed.next);

    var harmonies :- CreateHarmonies(lib, primaryBase, src, surfaces.next);
    var secondaryLight := ToneOf(lib, harmonies.light.secondary);
    var accentLight := ToneOf(lib, harmonies.light.accent);
    var secondaryDark := ToneOf(lib, harmonies.dark.secondary);
    var accentDark := ToneOf(lib, harmonies.dark.accent);

    var destructive := CreateDestructives(lib, src, harmonies.next);
    var destructiveLight := Tone(destructive.light, lib.toHsl(CreateContrast(lib, destructive.base).color));
    var destructiveDark :=
      Tone(destructive.dark, lib.toHsl(CreateContrast(lib, lib.parse(destructive.dark)).color));

    var shades := CreateShades(secondaryLight.color, secondaryDark.color,
                               surfaces.light.background, surfaces.dark.background, src, destructive.next);

    var light := Scheme(lib, surfaces.light, primaryLight, secondaryLight, accentLight, destructiveLight, shades.light);
    var dark := Scheme(lib, surfaces.dark, primaryDark, secondaryDark, accentDark, destructiveDark, shades.dark);
    var trace := Trace(seed.value, surfaces.cardBoolean, surfaces.popoverBoolean, harmonies.mode,
                       harmonies.shouldMatch, harmonies.light, harmonies.dark, destructive.base);
    Success(Generated(ThemePair(light, dark), trace, shades.next))
  }

  // ---------------------------------------------------------------------------
  // Properties of every generated theme

  /** The primary family: the seed read back through colord, its contrast
      foreground, and the same four colours in both schemes. */
  lemma PrimaryRoles(lib: ColorLib, primaryColor: Option<Hsl>, src: Source, pos: nat)
    ensures CreateThemeConfig(lib, primaryColor, src, pos).Success? ==>
            var g := CreateThemeConfig(lib, primaryColor, src, pos).value;
            var l, d := g.theme.light, g.theme.dark;
            && l.primary == lib.toHsl(lib.parse(g.trace.seed))
            && l.primaryForeground == lib.toHsl(CreateContrast(lib, lib.parse(g.trace.seed)).color)
            && l.primary == d.primary && l.primaryForeground == d.primaryForeground
            && l.tpInside == d.tpInside && l.tpLight == d.tpLight
  {
  }

  /** Aliases and feature shades hold in both schemes. */
  lemma AliasedRoles(lib: ColorLib, primaryColor: Option<Hsl>, src: Source, pos: nat)
    ensures CreateThemeConfig(lib, primaryColor, src, pos).Success? ==>
            var t := CreateThemeConfig(lib, primaryColor, src, pos).value.theme;
            && Aliased(t.light) && Aliased(t.dark)
            && FeatureShades(lib, t.light) && FeatureShades(lib, t.dark)
  {
  }

  /** Background and foreground inherit the primary's hue and stay in range;
      card and popover follow the two shared coin flips. */
  lemma SurfaceRoles(lib: ColorLib, primaryColor: Option<Hsl>, src: Source, pos: nat)
    ensures CreateThemeConfig(lib, primaryColor, src, pos).Success? ==>
            var g := CreateThemeConfig(lib, primaryColor, src, pos).value;
            var l, d := SurfaceOf(g.theme.light), SurfaceOf(g.theme.dark);
            && SurfaceHue(l, d, lib.hue(lib.parse(g.trace.seed)))
            && (Valid(src) ==> SurfaceRanges(l, d))
            && CardPopover(lib, l, d, g.trace.cardBoolean, g.trace.popoverBoolean)
  {
  }

  /** Secondary and accent follow one harmony mode in both schemes: they are
      the primary's harmony members the mode picks, read back through colord;
      outside slick mode both schemes carry the same secondary and accent (and
      foregrounds); complementary, and slick with `shouldMatch`, make the
      accent the secondary. */
  lemma HarmonyRoles(lib: ColorLib, primaryColor: Option<Hsl>, src: Source, pos: nat)
    ensures CreateThemeConfig(lib, primaryColor, src, pos).Success? ==>
            var g := CreateThemeConfig(lib, primaryColor, src, pos).value;
            var l, d, tr := g.theme.light, g.theme.dark, g.trace;
            && l.secondary == lib.toHsl(tr.lightPair.secondary) && l.accent == lib.toHsl(tr.lightPair.accent)
            && d.secondary == lib.toHsl(tr.darkPair.secondary) && d.accent == lib.toHsl(tr.darkPair.accent)
            && (tr.mode != Slick ==>
                  && l.secondary == d.secondary && l.accent == d.accent
                  && l.secondaryForeground == d.secondaryForeground && l.accentForeground == d.accentForeground)
            && (tr.mode == Complementary || (tr.mode == Slick && tr.shouldMatch) ==>
                  && l.accent == l.secondary && d.accent == d.secondary
                  && l.accentForeground == l.secondaryForeground && d.accentForeground == d.secondaryForeground)
            && (tr.mode == Complementary ==>
                  var hs := lib.harmonies(lib.parse(tr.seed), "complementary");
                  |hs| >= 2 && tr.lightPair == Pair(hs[1], hs[1]))
            && (tr.mode == Triadic ==>
                  var hs := lib.harmonies(lib.parse(tr.seed), "triadic");
                  |hs| >= 3 && tr.lightPair == Pair(hs[1], hs[2]))
            && (tr.mode == Analogous ==>
                  var hs := lib.harmonies(lib.parse(tr.seed), "analogous");
                  |hs| >= 3 && tr.lightPair == Pair(hs[0], hs[2]))
            && (tr.mode == Slick && Valid(src) ==>
                  && SlickBase(lib, lib.parse(tr.seed), false, tr.lightPair.secondary)
                  && SlickBase(lib, lib.parse(tr.seed), true, tr.darkPair.secondary))
  {
  }

  /** The destructive red: light is the drawn colour read back, dark keeps its
      hue and saturation with its own lightness in [45, 60]. */
  lemma DestructiveRoles(lib: ColorLib, primaryColor: Option<Hsl>, src: Source, pos: nat)
    ensures CreateThemeConfig(lib, primaryColor, src, pos).Success? ==>
            var g := CreateThemeConfig(lib, primaryColor, src, pos).value;
            var l, d := g.theme.light, g.theme.dark;
            && l.destructive == lib.toHsl(g.trace.destructive)
            && l.destructiveForeground == lib.toHsl(CreateContrast(lib, g.trace.destructive).color)
            && d.destructive.h == l.destructive.h && d.destructive.s == l.destructive.s
            && d.destructiveForeground == lib.toHsl(CreateContrast(lib, lib.parse(d.destructive)).color)
            && (Valid(src) ==> IntIn(d.destructive.l, 45, 60))
            && (Valid(src) ==> exists c :: DestructiveInRange(c) && g.trace.destructive == lib.parse(c))
  {
  }

  /** Muted, muted-foreground and border share their deviations across
      schemes and stay in range; the light border sits 5 to 10 below the
      light background, so in [88, 95]. */
  lemma ShadeRoles(lib: ColorLib, primaryColor: Option<Hsl>, src: Source, pos: nat)
    ensures CreateThemeConfig(lib, primaryColor, src, pos).Success? ==>
            var t := CreateThemeConfig(lib, primaryColor, src, pos).value.theme;
            var l, d := t.light, t.dark;
            && SharedDeviations(ShadesOf(l), ShadesOf(d), l.secondary, d.secondary, l.background, d.background)
            && (Valid(src) ==> ShadeRanges(ShadesOf(l), ShadesOf(d)))
            && (Valid(src) ==> l.background.l - 10.0 <= l.border.l <= l.background.l - 5.0)
            && (Valid(src) ==> IntIn(l.border.l, 88, 95))
  {
  }
}

=== FILE: wrappers.dfy ===
/** `Option` stands for a JavaScript value that may be `undefined`, `Result`
    for a computation that may throw; only `Result` is used with `:-`. */
module Wrappers {

  datatype Option<+T> = None | Some(value: T)

  datatype Result<+R, +E> = Success(value: R) | Failure(error: E) {
    predicate IsFailure() {
      Failure?
    }

    function PropagateFailure<U>(): Result<U, E>
      requires Failure?
    {
      Failure(error)
    }

    function Extract(): R
      requires Success?
    {
      value
    }
  }
}
